=== FILE: README.md ===
# Project-Visualizer indexing engine in Dafny

This project models the indexing engine of Project-Visualizer, a tool that
draws a code base as a graph of declarations and the references between them.
The engine sends queries to the `gopls` language server and turns its plain-text
answers into data:

- a position model (`L:C-L2:C2` range tokens become a start line and a column
  range, and are serialised back to `L:C-C2`);
- a symbol extractor (`name kind range` lines become symbols; a method's
  receiver type is dropped from its name);
- two reference parsers:
  - one appends a reference per line to a list and names the file and folder
    by splitting the path on '/';
  - the other keys references by file path, names the file and folder with
    `filepath.Base`/`filepath.Dir`, and resolves each reference to its
    enclosing declaration;
- two enclosing-declaration resolvers:
  - a greedy scan for the nearest preceding Function or Method;
  - a seeded variant that starts from the first Function or Method, falls
    back to a symbol on the reference line, and otherwise reports that there
    is no parent;
- the entry-validity policy (extension allow-list, excluded directories and
  files), folder-map cleaning, and the file-map update that stores a file's
  symbols;
- two small validators from the vendored quickfeed sample: pull-request stages
  and invitation options.

The repository holds overlapping copies of the same logic. Where two copies are
identical, one Dafny definition models both:
- `extractSymbols`/`createPosition` in `main.go` and `src/operations/symbol.go`;
- the greedy `getRelatedMethod` in `main.go` and `src/operations/get.go`;
- `addSymbolsToFile` in both files.

Copies that differ get their own module. `Symbols.ExtractSymbols`, for example,
is the single model of both `extractSymbols` functions. `ReferenceList` models
`main.go`'s `parseRefs` and `ReferenceIndex` models `src/ops/reference.go`'s.

Everything is immutable data and pure functions; the methods that mirror Go
loops return their results.
- Go's `strings.Split` is modelled exactly for the one-character separators
  the code uses, including `Split("", sep) == [""]`, in `GoStrings`.
- Go's string `<` is modelled as lexicographic order on characters
  (`GoStrings.Less`). Go compares the UTF-8 bytes, and UTF-8 keeps the order of
  code points, so the two orders agree. Line numbers stay strings, so "10" < "9".
- Go index panics become preconditions. The explicit panic of the seeded
  resolver becomes the error `NoParentSymbol`.
- Output from the language server, the symbol lists of files and the results of
  file-system calls are parameters.

Behaviour of the Go code worth knowing:
- line numbers are compared as text, not as integers;
- cleaning removes only empty top-level folders; the recursive call into sub-folders has no effect on the keys returned, because its result is discarded;
- `addSymbolsToFile` never inserts: a file missing from the file map is an error;
- nothing compares modification times to decide whether a file needs re-indexing;
- the seeded resolver panics when nothing matches (modelled as an error result).
- `getContent` in `main.go` passes `s.Refs` to `getRefs`, and `extractSymbols` never sets that field, so `parseRefs` always receives a nil list and panics on the first non-empty line of a references answer.

The modules, leaf first:
- `Wrappers`
- `GoStrings`, `GoPaths`, `Seqs`
- `GoplsText`
- `Positions`
- `Symbols`
- `Resolver`
- `ReferenceList`, `ReferenceIndex`, `CopiesAgree`
- `Validity`
- `FolderMap`
- `FileCache`
- `PullRequests`, `Invitations`

## Model

| member | source | states |
|---|---|---|
| `GoStrings.SplitProperties` | main.go:423-424 | `strings.Split` gives one field exactly when the separator is absent. The first field is the text before the first separator, and no field contains the separator. |
| `GoStrings.LessIsNotNumeric` | main.go:435-436 | Lines compare as text: "10" < "9" and not "9" < "10", and the empty line is below exactly the non-empty lines (not below itself). |
| `Positions.CreatePosition` | src/operations/symbol.go:52-59 | The start line is the text of the range before its first ':', and it holds no ':' or '-'. The range must have a '-' with a ':' on both sides, or Go indexes out of range. |
| `Positions.GetPos` | main.go:67-69 | The query text is the line, a ':' and the column range. When the line has no ':', splitting on the first ':' gives back the line and the column range. |
| `Positions.PositionRoundTrip` | main.go:386-393 | For `L:C-L2:C2` with ':'/'-'-free parts: `createPosition` keeps line `L` and range `C-C2`, `getPos` gives `L:C-C2`, and the end line `L2` is dropped. |
| `GoplsText.NonEmptyLinesAppend` | main.go:407-411 | Skipping empty lines keeps the other lines in their order, and keeps a line exactly when it is non-empty. |
| `Symbols.SymbolLinesAppend` | main.go:366-370 | Lines with fewer than three single-space fields are skipped; the others are kept in order. |
| `Symbols.SymbolName` | main.go:373-376 | A `Method` whose name has a '.' is stored as the text between its first and second '.', which is '.'-free and shorter than the name. Every other name is kept verbatim. |
| `Symbols.Extracted` | src/operations/symbol.go:32-48 | Exactly one symbol per symbol line, in line order, each described by its line. |
| `Symbols.ExtractSymbols` | main.go:365-383 | The result is the prior symbols followed by one symbol per line with at least three fields, in order, each described by its line. Empty output appends nothing. |
| `Symbols.EmptyOutputHasNoSymbols` | src/operations/symbol.go:32-36 | An empty answer has no symbol lines. |
| `Symbols.MethodReceiverStripped` | src/operations/symbol.go:39-42 | Method `Foo.Bar` is stored as `Bar`; a function named `Foo.Bar` keeps its name. |
| `Resolver.NearestIndexIsNearest` | src/operations/get.go:42-57 | The greedy scan ends on no replacement exactly when no Function/Method lies strictly between the initial line and the reference line. Otherwise it ends on such a symbol with the greatest line, the earliest one on ties. |
| `Resolver.RelatedMethod` | main.go:428-443 | The error is always nil. A non-callable symbol is never chosen. A replacement comes from the list with its line between the initial line and the reference line. The line never decreases. The result's line is the greatest candidate line. |
| `Resolver.NearestLineNotBelow` | src/operations/get.go:49-53 | The line the scan ends on equals the initial line or lies above it. |
| `Resolver.EarliestTieWins` | main.go:438-439 | Of two functions on the same line, both candidates, the first one in the list is kept. |
| `Resolver.TextualLineOrder` | main.go:435-436 | A function on line 2 is not taken for a reference on line 10, because "2" < "10" is false for text. |
| `ReferenceIndex.FirstCallable` | src/ops/reference.go:92-100 | The seed is the first Function or Method in list order, or there is none. |
| `ReferenceIndex.FirstOnLine` | src/ops/reference.go:108-112 | The fallback is the first symbol of any kind on the reference line, or there is none. |
| `ReferenceIndex.RelatedMethod` | src/ops/reference.go:83-89 | An unreadable symbol list is `SymbolsUnavailable`, and an empty one is `ZeroSymbols`. |
| `ReferenceIndex.RelatedMethodSpec` | src/ops/reference.go:90-115 | The result is a symbol of the file. With a Function/Method present it succeeds with one. Without any, it succeeds exactly when some symbol is on the reference line, returns a symbol on that line, and otherwise fails with `NoParentSymbol`. |
| `ReferenceIndex.SeedThenNearest` | src/ops/reference.go:97-105 | After the seed, the result is the nearest candidate among the later symbols (greatest line, earliest on ties), or the seed when none qualifies. |
| `ReferenceIndex.SeedWhenAboveAll` | src/ops/reference.go:97-100 | A reference above every Function/Method resolves to the first Function/Method instead of failing. |
| `ReferenceIndex.FallbackTakesFirstOnLine` | src/ops/reference.go:107-112 | Without Functions/Methods, the first symbol on the reference line is returned. |
| `ReferenceIndex.NoParentIsAnError` | src/ops/reference.go:113 | A file with only a variable on another line gives `NoParentSymbol`, where the Go code panics. |
| `ReferenceIndex.MakeRef` | src/ops/reference.go:59-76 | `FilePath` is the text before the first ':', with no ':'. `Path` is a prefix of the line with exactly three ':'-fields that ends where the line ends or just before its third ':', so it is the first three fields rejoined (the whole line when there are exactly three). `FileName` is `filepath.Base` of the file path and `FolderName` is `filepath.Base` of its `filepath.Dir`. `MethodName` is the resolved name. |
| `ReferenceIndex.FirstFailure` | src/ops/reference.go:59-69 | Characterises the line that stops the parse: every earlier non-empty line has a line field and resolves, and that line does not resolve (or cannot be read). |
| `ReferenceIndex.LastWriter` | src/ops/reference.go:70 | Characterises the line whose reference a path holds: the last non-empty earlier line with that path. |
| `ReferenceIndex.ParseRefs` | src/ops/reference.go:53-79 | Stores the lines before the first unresolvable one, each under its file path, the last line of a file winning. Keys come only from those lines or the prior map, and untouched keys keep their values. The error is that of the stopping line, and nil when there is none. |
| `ReferenceIndex.ErrorStopsBeforeLaterLines` | src/ops/reference.go:59-69 | A two-field line whose file has no symbol list stops the parse at that line with `SymbolsUnavailable`. The precondition accepts it, and it accepts the ':'-free line after it, which the loop never reads. |
| `ReferenceIndex.EmptyAnswerStoresNothing` | src/ops/reference.go:54-58 | An empty answer leaves the map unchanged and reports no error. |
| `ReferenceList.LastEntry` | main.go:422-425 | The chosen element holds no delimiter; `i` must be below the number of elements (Go panics otherwise). |
| `ReferenceList.LastEntryOfJoin` | main.go:421-425 | For delimiter-free elements, `getLastEntry(join(segs), d, i)` is `segs[len-1-i]`. |
| `ReferenceList.RefOf` | main.go:413-416 | `Path` is the whole line and `MethodName` is empty. `FileName` and `FolderName` are '/'-free, and the file path ends with `FolderName/FileName`, with a '/' or the path's start just before `FolderName`, so they are its last two elements. |
| `ReferenceList.Collected` | main.go:407-418 | One reference per non-empty line, in order, each given by its line. |
| `ReferenceList.ParseRefs` | main.go:406-419 | The prior references stay as a prefix, followed by exactly one reference per non-empty line, in line order. |
| `CopiesAgree.NamesAgreeOnCleanPaths` | main.go:414-415 | On a clean path, `Base`/`Base(Dir)` and `getLastEntry` 0/1 pick the same last and second-last elements. |
| `CopiesAgree.RefsAgreeOnCleanPaths` | src/ops/reference.go:63-64 | For a line on a clean path, both parsers store the same file and folder names. |
| `Validity.IsValid` | main.go:446-461 | A directory fails exactly when its whole path is excluded; its extension is not checked. A file passes exactly when it is not excluded and its extension is `.go`, `.ts` or `.tsx`. |
| `Validity.GoFilesAreValid` | main.go:112 | Any path ending in `.go` passes as a file. |
| `Validity.FileWithoutExtensionIsRefused` | main.go:455-457 | A file whose last element has no '.' fails as unsupported, both as a bare name such as `Makefile` and under a directory. |
| `Validity.DirectoriesMatchWholePath` | main.go:447-450 | `quickfeed/node_modules` and `notes.txt` pass as directories; `node_modules` fails. |
| `FolderMap.Pruned` | main.go:325-331 | The pruned map keeps exactly the top-level folders that have a sub-folder or a file, with their values. |
| `FolderMap.KeysToDelete` | main.go:334-346 | The keys returned are exactly the top-level folders with no sub-folders and no files, each once. |
| `FolderMap.Clean` | main.go:326-331 | Always nil. Removes exactly those keys, and kept folders are unchanged. No prunable folder remains, so a second clean deletes nothing. |
| `FolderMap.PrunedIdempotent` | main.go:326-331 | Cleaning twice is cleaning once. |
| `FolderMap.NestedEmptyFolderSurvives` | main.go:341-343 | An empty folder nested in a kept folder survives, because the recursive result is discarded. |
| `FileCache.AddSymbolsToFile` | src/operations/symbol.go:61-81 | Keys never change. A stat error, a missing key or a relative-path error leaves the map unchanged and reports that error. Otherwise the entry gets the new path, modification time and symbols, other entries are unchanged, and a write error is reported after the update. |
| `FileCache.AddSymbolsIdempotent` | main.go:257-263 | Storing the same symbols twice gives the map that storing them once gives. |
| `PullRequests.SetApproved` | sample-code/quickfeed/qf/pull_request.go:3-5 | Afterwards `IsApproved` and `HasReviewers` hold, and only the stage changed. |
| `PullRequests.SetReview` | sample-code/quickfeed/qf/pull_request.go:7-9 | Afterwards `HasReviewers` holds and `IsApproved` does not, and only the stage changed. |
| `PullRequests.SetDraft` | sample-code/quickfeed/qf/pull_request.go:11-13 | Afterwards neither holds, and only the stage changed. |
| `PullRequests.ApprovedHasReviewers` | sample-code/quickfeed/qf/pull_request.go:16-24 | `IsApproved` implies `HasReviewers`. |
| `PullRequests.SettersKeepValidity` | sample-code/quickfeed/qf/pull_request.go:27-36 | The stage setters preserve `Valid` and `HasFeedbackComment`. |
| `PullRequests.ValidNeedsEveryField` | sample-code/quickfeed/qf/pull_request.go:32-36 | Zeroing any of the five identifiers, or emptying the branch, breaks validity. The comment id and the stage do not matter. |
| `Invitations.ValidIffAllFieldsSet` | sample-code/quickfeed/scm/scm_invite.go:10-12 | The options are invalid when the login, the owner or the refresh token is empty, and valid when none is. |

## Left out

- Command-line plumbing is not modelled: `main`, `createMap`, `deleteMap`, `getMapPath`, `handleContentInput`, `scanContent` and `src/main.go`.
- File and JSON I/O is not modelled: `getCache`, `marshalAndWriteToFile`, `GetFile`. Results of `os.Stat`, `filepath.Rel` and the write are parameters of `FileCache.AddSymbolsToFile`.
- Language-server calls are not modelled: `runGopls`, both `getSymbols`, both `getRefs` and both `getContent`. Their output text and the per-file symbol lists are parameters. In `ReferenceIndex`, a path missing from the index stands for a failed symbol read.
- The bookkeeping for unused symbols in `getRefs` of `src/ops/reference.go` is left out, because those cache helpers are not part of this model.
- Graph rendering (`createGraphvizFile`, an `html/template` program) is not modelled.
- Global mutable state (`errors`, `fMap`, `projectMap`, `cache`) is passed as explicit values.
- `ReferenceIndex.RelatedMethod`: its own contract states only the two error cases. What it returns on success is stated by the lemma `ReferenceIndex.RelatedMethodSpec`, which keeps that proof out of every caller. It returns the symbol itself, where the Go code returns a pointer to the symbol's name.
- `GoPaths.Dir` models `filepath.Dir` only for clean paths. It strips trailing slashes but does not resolve `.`, `..` or repeated slashes.
- `ReferenceList.LastEntry` takes a one-character delimiter; its only caller passes "/".
- `Symbols.Symbol` has no `Refs` field, because `extractSymbols` never sets it.
- `FolderMap.KeysToDelete` does not make the recursive call into sub-folders, because the Go code discards its result, so the call has no effect on the keys returned.
- `FolderMap.Folder` holds sub-folders as a map, not a pointer, so the nil dereference of a folder without a sub-folder map is not modelled.
- Error messages are error constructors, not formatted text. In `ReferenceIndex.ParseRefs`, the wrapping `fmt.Errorf` is dropped.
- These preconditions replace Go index panics:
  - `Symbols.ExtractSymbols` requires every symbol line to have a well-formed range (`createPosition` indexes its splits).
  - `ReferenceIndex.ParseRefs` requires the lines the loop reaches to be readable. That means a second ':' field (`args[1]`) on every non-empty line up to and including the first one that does not resolve, and a third (`args[2]`) on each line that resolves. Lines after the first failure are unconstrained (`ReferenceIndex.ErrorStopsBeforeLaterLines`).
  - `ReferenceList.ParseRefs` requires a '/' in every non-empty line's file path (`getLastEntry(.., 1)`).
- `PullRequests.PullRequest` holds only the fields that `SetApproved`, `SetReview`, `SetDraft`, `IsApproved`, `HasReviewers`, `HasFeedbackComment` and `Valid` read. Stage values other than draft, review and approved are represented by `NoStage`, because the generated enum is not part of this model.
- `FileCache.Entry` stores the symbol list by value where the Go code stores a pointer to it.
- `ReferenceList.ParseRefs` takes the reference list as a value where the Go code takes a pointer to it, so the nil dereference at `*refs = append(*refs, ref)` is not modelled. Its only caller passes a nil pointer, so in the Go code every non-empty answer panics, while the model returns the references.
- `Resolver.RelatedMethod` takes the current parent symbol as a value where the Go code takes a pointer to it, so the nil dereference of `refParent` is not modelled. In the Go code a nil `refParent` panics once the list holds a Function or Method.

=== FILE: copies_agree.dfy ===
/**
 The two reference parsers name files and folders differently: the keyed one
 with `filepath.Base` and `filepath.Base(filepath.Dir(..))`, the list one by
 splitting on '/'. For a clean path of non-empty elements they agree.
 */
module CopiesAgree {
  import opened GoStrings
  import opened GoPaths
  import ReferenceIndex
  import ReferenceList

  /** On a clean relative or absolute path, `Base` and `Base(Dir(..))` pick
      the last and second-last elements, as `getLastEntry` does. */
  lemma NamesAgreeOnCleanPaths(segs: seq<string>)
    requires |segs| >= 2
    requires segs[|segs| - 1] != "" && segs[|segs| - 2] != ""
    requires forall k :: 0 <= k < |segs| ==> '/' !in segs[k]
    ensures var p := Join(segs, '/');
      && |Split(p, '/')| >= 2
      && Base(p) == ReferenceList.LastEntry(p, '/', 0) == segs[|segs| - 1]
      && Base(Dir(p)) == ReferenceList.LastEntry(p, '/', 1) == segs[|segs| - 2]
  {
    BaseOfJoin(segs);
    BaseOfDirOfJoin(segs);
    ReferenceList.LastEntryOfJoin(segs, '/', 0);
    ReferenceList.LastEntryOfJoin(segs, '/', 1);
  }

  /** For a reference line on a clean path, the keyed parser stores the same
      file and folder names as the list parser, and its `filePath` is the
      path the list parser splits. */
  lemma RefsAgreeOnCleanPaths(segs: seq<string>, rest: string, name: string)
    requires |segs| >= 2
    requires segs[|segs| - 1] != "" && segs[|segs| - 2] != ""
    requires forall k :: 0 <= k < |segs| ==> '/' !in segs[k] && ':' !in segs[k]
    requires ':' in rest
    ensures var line := Join(segs, '/') + [':'] + rest;
      && |Split(line, ':')| >= 3
      && line != "" && ReferenceList.ListRefLine(line)
      && var keyed := ReferenceIndex.MakeRef(line, name);
      && var listed := ReferenceList.RefOf(line);
      && keyed.filePath == ReferenceList.FilePathOf(line) == Join(segs, '/')
      && keyed.fileName == listed.fileName == segs[|segs| - 1]
      && keyed.folderName == listed.folderName == segs[|segs| - 2]
  {
    var p := Join(segs, '/');
    var line := p + [':'] + rest;
    JoinHasNo(segs, '/', ':');
    SplitAt(p, ':', rest);
    SplitProperties(rest, ':');
    NamesAgreeOnCleanPaths(segs);
    SplitJoin(segs, '/');
    SplitProperties(p, '/');
  }

  /** Joining pieces free of a character `c` other than the separator gives
      a string free of `c`. */
  lemma {:induction false} JoinHasNo(parts: seq<string>, sep: char, c: char)
    requires c != sep
    requires forall k :: 0 <= k < |parts| ==> c !in parts[k]
    ensures c !in Join(parts, sep)
    decreases |parts|
  {
    if |parts| > 1 {
      JoinHasNo(parts[1..], sep, c);
    }
  }
}

=== FILE: file_cache.dfy ===
/**
 The file map: the cache of symbols per file, keyed by the file's base name.
 An update replaces the entry of a file that is already a key and never
 inserts one.
 */
module FileCache {
  import opened Wrappers
  import opened Symbols

  /** A Go `int64`, the type of a Unix time in seconds. */
  type Int64 = x: int | -0x8000_0000_0000_0000 <= x < 0x8000_0000_0000_0000

  /** One cached file: its path relative to the project root, the time it
      was last modified and the symbols found in it. */
  datatype Entry = Entry(path: string, modTime: Int64, symbols: seq<Symbol>)

  type FileMap = map<string, Entry>

  /** What `os.Stat` reports about a file: its base name and modification time. */
  datatype FileInfo = FileInfo(name: string, modTime: Int64)

  datatype CacheError =
    | StatFailed(reason: string)
    | NotInFileMap(name: string)
    | RelPathFailed(reason: string)
    | WriteFailed(reason: string)

  /** The file map after an update, and the error the update reports. */
  datatype Update = Update(fileMap: FileMap, err: Option<CacheError>)

  /**
   `addSymbolsToFile`: stores `symbols` for the file that `stat` describes.
   The results of the file-system calls are parameters: `stat` of `os.Stat`,
   `relPath` of computing the path relative to the project root, and `write`
   of writing the map to disk (`None` for success). A file whose base name is
   not yet a key is an error. The write happens after the map is updated, so
   a failed write still leaves the new entry in place.
   */
  function AddSymbolsToFile(fileMap: FileMap, symbols: seq<Symbol>, stat: Result<FileInfo, string>,
                            relPath: Result<string, string>, write: Option<string>): (u: Update)
    ensures u.fileMap.Keys == fileMap.Keys
    ensures stat.Failure? ==> u == Update(fileMap, Some(StatFailed(stat.error)))
    ensures stat.Success? && stat.value.name !in fileMap ==>
      u == Update(fileMap, Some(NotInFileMap(stat.value.name)))
    ensures stat.Success? && stat.value.name in fileMap && relPath.Failure? ==>
      u == Update(fileMap, Some(RelPathFailed(relPath.error)))
    ensures stat.Success? && stat.value.name in fileMap && relPath.Success? ==>
      && u.fileMap[stat.value.name] == Entry(relPath.value, stat.value.modTime, symbols)
      && (forall k :: k in fileMap && k != stat.value.name ==> u.fileMap[k] == fileMap[k])
      && u.err == (if write.Some? then Some(WriteFailed(write.value)) else None)
  {
    match stat
    case Failure(reason) => Update(fileMap, Some(StatFailed(reason)))
    case Success(f) =>
      if f.name in fileMap then
        match relPath
        case Failure(reason) => Update(fileMap, Some(RelPathFailed(reason)))
        case Success(path) =>
          var entry := fileMap[f.name].(path := path, modTime := f.modTime, symbols := symbols);
          var updated := fileMap[f.name := entry];
          Update(updated, if write.Some? then Some(WriteFailed(write.value)) else None)
      else
        Update(fileMap, Some(NotInFileMap(f.name)))
  }

  /** Storing the same symbols twice leaves the map as storing them once. */
  lemma AddSymbolsIdempotent(fileMap: FileMap, symbols: seq<Symbol>, stat: Result<FileInfo, string>,
                             relPath: Result<string, string>, write: Option<string>)
    ensures var once := AddSymbolsToFile(fileMap, symbols, stat, relPath, write).fileMap;
      AddSymbolsToFile(once, symbols, stat, relPath, write).fileMap == once
  {
    var once := AddSymbolsToFile(fileMap, symbols, stat, relPath, write).fileMap;
    var twice := AddSymbolsToFile(once, symbols, stat, relPath, write).fileMap;
    assert twice.Keys == once.Keys;
  }
}

=== FILE: folder_map.dfy ===
/**
 The folder map behind the graph: folders keyed by name, each holding its
 files, references, gopls errors and a map of sub-folders. Cleaning drops
 the folders that hold nothing, at the top level only.
 */
module FolderMap {
  import opened Wrappers
  import opened Positions

  /** Where a reference starts or ends, for drawing. */
  datatype RefInfo = RefInfo(path: string, folderName: string, fileName: string, methodName: string)

  datatype RefGraphviz = RefGraphviz(source: RefInfo, info: RefInfo)

  datatype SymbolGraphviz = SymbolGraphviz(name: string, kind: string, position: Position, refs: seq<RefGraphviz>)

  datatype File = File(name: string, path: string, refs: seq<RefGraphviz>, symbols: seq<SymbolGraphviz>)

  /** A failed gopls call; the Go `error` is kept as its message. */
  datatype GoplsError = GoplsError(error: string, command: string, input: string, output: string)

  datatype Folder = Folder(
    folderName: string,
    folderPath: string,
    refs: seq<RefGraphviz>,
    files: seq<File>,
    errors: seq<GoplsError>,
    subFolders: map<string, Folder>)

  type GraphMap = map<string, Folder>

  /** A folder is pruned when it has neither sub-folders nor files; its
      references and errors do not keep it. */
  predicate Prunable(f: Folder)
  {
    |f.subFolders| == 0 && |f.files| == 0
  }

  /** The map without its prunable top-level folders. */
  function Pruned(g: GraphMap): (r: GraphMap)
    ensures forall k :: k in r <==> k in g && !Prunable(g[k])
    ensures forall k :: k in r ==> r[k] == g[k]
  {
    map k | k in g && !Prunable(g[k]) :: g[k]
  }

  /**
   `getKeysToDelete`: the keys of the top-level folders with no sub-folders
   and no files, each once, in the map's iteration order (any order). Folders
   with sub-folders are skipped: what the Go code finds inside them is
   discarded.
   */
  method KeysToDelete(g: GraphMap) returns (keys: seq<string>)
    ensures forall k :: k in keys <==> k in g && Prunable(g[k])
    ensures forall i, j :: 0 <= i < j < |keys| ==> keys[i] != keys[j]
  {
    keys := [];
    var remaining := g.Keys;
    while remaining != {}
      invariant remaining <= g.Keys
      invariant forall k :: k in keys <==> k in g && k !in remaining && Prunable(g[k])
      invariant forall i, j :: 0 <= i < j < |keys| ==> keys[i] != keys[j]
      decreases remaining
    {
      var key :| key in remaining;
      var folder := g[key];
      if |folder.subFolders| == 0 {
        if |folder.files| == 0 {
          keys := keys + [key];
        }
      }
      remaining := remaining - {key};
    }
  }

  /**
   `graphMap.clean`: deletes the keys `KeysToDelete` finds. Always succeeds;
   the folders kept are unchanged, nested empty folders included.
   */
  method Clean(g: GraphMap) returns (g': GraphMap, err: Option<string>)
    ensures err == None
    ensures forall k :: k in g' <==> k in g && !Prunable(g[k])
    ensures forall k :: k in g' ==> g'[k] == g[k]
    ensures forall k :: k in g' ==> !Prunable(g'[k])
    ensures g' == Pruned(g)
  {
    var keys := KeysToDelete(g);
    g' := g;
    var i := 0;
    while i < |keys|
      invariant 0 <= i <= |keys|
      invariant forall k :: k in g' <==> k in g && k !in keys[..i]
      invariant forall k :: k in g' ==> g'[k] == g[k]
    {
      g' := g' - {keys[i]};
      i := i + 1;
    }
    assert keys[..i] == keys;
    assert g'.Keys == Pruned(g).Keys;
    err := None;
  }

  /** Cleaning is the same as pruning, so a second clean deletes nothing. */
  lemma PrunedIdempotent(g: GraphMap)
    ensures Pruned(Pruned(g)) == Pruned(g)
  {
    assert Pruned(Pruned(g)).Keys == Pruned(g).Keys;
  }

  /** Only the top level is pruned: an empty folder nested in a folder
      survives a clean. */
  lemma NestedEmptyFolderSurvives()
    ensures var empty := Folder("b", "a/b", [], [], [], map[]);
      var outer := Folder("a", "a", [], [], [], map["b" := empty]);
      var r := Pruned(map["a" := outer]);
      "a" in r && "b" in r["a"].subFolders && Prunable(r["a"].subFolders["b"])
  {
    var empty := Folder("b", "a/b", [], [], [], map[]);
    var outer := Folder("a", "a", [], [], [], map["b" := empty]);
    assert |outer.subFolders| == 1;
  }
}

=== FILE: go_paths.dfy ===
/**
 Go's `path/filepath` functions `Base`, `Dir` and `Ext` on Unix, where the
 separator is '/' and there are no volume names.
 */
module GoPaths {
  import opened GoStrings

  /** Position of the last `c` in `s`, or -1 when there is none. */
  function LastIndexOf(s: string, c: char): (i: int)
    ensures -1 <= i < |s|
    ensures i >= 0 ==> s[i] == c
    ensures forall j :: i < j < |s| ==> s[j] != c
    decreases |s|
  {
    if |s| == 0 then -1
    else if s[|s| - 1] == c then |s| - 1
    else LastIndexOf(s[..|s| - 1], c)
  }

  /** `s` without its trailing slashes. */
  function TrimTrailingSlashes(s: string): (r: string)
    ensures r <= s
    ensures |r| == 0 || r[|r| - 1] != '/'
    ensures forall j :: |r| <= j < |s| ==> s[j] == '/'
    decreases |s|
  {
    if |s| > 0 && s[|s| - 1] == '/' then TrimTrailingSlashes(s[..|s| - 1]) else s
  }

  /** `filepath.Base`: the last element of `path` after trailing slashes are
      dropped; "." for the empty path and "/" for a path of slashes only. */
  function Base(path: string): (r: string)
    ensures r != ""
    ensures r == "/" || r == "." || '/' !in r
  {
    if path == "" then "."
    else
      var t := TrimTrailingSlashes(path);
      var last := t[LastIndexOf(t, '/') + 1..];
      if last == "" then "/" else last
  }

  /** `filepath.Clean` as `filepath.Dir` needs it: "." for the empty path,
      trailing slashes removed, the root kept. Collapsing of `.` and `..`
      elements and of repeated inner slashes is not modelled. */
  function CleanDir(s: string): (r: string)
    ensures r != ""
  {
    if s == "" then "."
    else
      var t := TrimTrailingSlashes(s);
      if t == "" then "/" else t
  }

  /** `filepath.Dir`: everything up to the last slash, cleaned. */
  function Dir(path: string): (d: string)
  {
    CleanDir(path[..LastIndexOf(path, '/') + 1])
  }

  /** `filepath.Ext`: the suffix of `path` from the last '.' of its final
      element, or "" when the final element has no '.'. */
  function Ext(path: string): (r: string)
    ensures r == "" || (r[0] == '.' && '/' !in r && '.' !in r[1..])
    ensures |r| <= |path| && path[|path| - |r|..] == r
    ensures r == "" ==> forall j :: LastIndexOf(path, '/') < j < |path| ==> path[j] != '.'
  {
    var dot := LastIndexOf(path, '.');
    if dot > LastIndexOf(path, '/') then path[dot..] else ""
  }

  lemma LastIndexOfLast(a: string, c: char, b: string)
    requires c !in b
    ensures LastIndexOf(a + [c] + b, c) == |a|
  {
    var s := a + [c] + b;
    assert s[|a|] == c;
  }

  /** The directory of `p/last` is `p` when `p` does not end in a slash. */
  lemma DirOfChild(p: string, last: string)
    requires '/' !in last
    requires |p| > 0 && p[|p| - 1] != '/'
    ensures Dir(p + ['/'] + last) == p
  {
    var s := p + ['/'] + last;
    LastIndexOfLast(p, '/', last);
    assert s[..|p| + 1] == p + ['/'];
    assert (p + ['/'])[..|p|] == p;
    assert TrimTrailingSlashes(p + ['/']) == TrimTrailingSlashes(p);
  }

  /** Whatever the stem, a name ending in `.ext` (with no '.' or '/' in
      `ext`) has extension `.ext`. */
  lemma ExtOfSuffix(stem: string, ext: string)
    requires '.' !in ext && '/' !in ext
    ensures Ext(stem + "." + ext) == "." + ext
  {
    var s := stem + "." + ext;
    assert s == stem + ['.'] + ext;
    LastIndexOfLast(stem, '.', ext);
    assert forall j :: |stem| <= j < |s| ==> s[j] == (['.'] + ext)[j - |stem|];
    assert LastIndexOf(s, '/') < |stem|;
  }

  /** Joining non-empty, slash-free elements gives a path whose base is the
      last element. */
  lemma {:induction false} BaseOfJoin(parts: seq<string>)
    requires |parts| >= 1
    requires parts[|parts| - 1] != ""
    requires forall k :: 0 <= k < |parts| ==> '/' !in parts[k]
    ensures Base(Join(parts, '/')) == parts[|parts| - 1]
  {
    var n := |parts|;
    var last := parts[n - 1];
    if n == 1 {
      assert LastIndexOf(last, '/') == -1;
    } else {
      var init := parts[..n - 1];
      assert parts == init + [last];
      JoinSnoc(init, last, '/');
      var p := Join(init, '/');
      var s := p + ['/'] + last;
      assert Join(parts, '/') == s;
      assert s[|s| - 1] == last[|last| - 1];
      assert TrimTrailingSlashes(s) == s;
      LastIndexOfLast(p, '/', last);
      assert s[|p| + 1..] == last;
    }
  }

  lemma {:induction false} JoinEndsWithLast(parts: seq<string>, sep: char)
    requires |parts| >= 1
    ensures |parts[|parts| - 1]| <= |Join(parts, sep)|
    ensures Join(parts, sep)[|Join(parts, sep)| - |parts[|parts| - 1]|..] == parts[|parts| - 1]
    decreases |parts|
  {
    if |parts| > 1 {
      JoinEndsWithLast(parts[1..], sep);
    }
  }

  lemma BaseOfDirOfSnoc(init: seq<string>, last: string)
    requires |init| >= 1
    requires last != "" && init[|init| - 1] != ""
    requires '/' !in last
    requires forall k :: 0 <= k < |init| ==> '/' !in init[k]
    ensures Base(Dir(Join(init + [last], '/'))) == init[|init| - 1]
  {
    JoinSnoc(init, last, '/');
    var p := Join(init, '/');
    var q := init[|init| - 1];
    JoinEndsWithLast(init, '/');
    assert p[|p| - |q|..] == q;
    assert p[|p| - 1] == p[|p| - |q|..][|q| - 1];
    DirOfChild(p, last);
    BaseOfJoin(init);
  }

  /** For the same kind of path with at least two elements, the base of the
      directory is the second-to-last element. */
  lemma BaseOfDirOfJoin(parts: seq<string>)
    requires |parts| >= 2
    requires parts[|parts| - 1] != "" && parts[|parts| - 2] != ""
    requires forall k :: 0 <= k < |parts| ==> '/' !in parts[k]
    ensures Base(Dir(Join(parts, '/'))) == parts[|parts| - 2]
  {
    var n := |parts|;
    assert parts == parts[..n - 1] + [parts[n - 1]];
    BaseOfDirOfSnoc(parts[..n - 1], parts[n - 1]);
  }
}

=== FILE: go_strings.dfy ===
/**
 The parts of Go's `strings` package and string comparison that the indexing
 engine relies on, stated for single-character separators.
 */
module GoStrings {

  /** Position of the first `c` in `s`, or `|s|` when `s` has none
      (where Go's `strings.Index` would report -1). */
  function IndexOf(s: string, c: char): (i: nat)
    ensures i <= |s|
    ensures i < |s| ==> s[i] == c
    ensures forall j :: 0 <= j < i ==> s[j] != c
    decreases |s|
  {
    if |s| == 0 || s[0] == c then 0 else 1 + IndexOf(s[1..], c)
  }

  /** Go's `strings.Split(s, string(sep))`: the pieces of `s` between the
      occurrences of `sep`. There is always at least one piece, and
      `Split("", sep) == [""]`. */
  function Split(s: string, sep: char): (r: seq<string>)
    ensures |r| >= 1
    decreases |s|
  {
    var i := IndexOf(s, sep);
    if i == |s| then [s] else [s[..i]] + Split(s[i + 1..], sep)
  }

  /** What a split promises: a single piece exactly when the separator is
      absent, the first piece is the text before the first separator, and
      no piece contains the separator. */
  lemma {:induction false} SplitProperties(s: string, sep: char)
    ensures var r := Split(s, sep);
      && (|r| == 1 <==> sep !in s)
      && r[0] == s[..IndexOf(s, sep)]
      && forall k :: 0 <= k < |r| ==> sep !in r[k]
    decreases |s|
  {
    var i := IndexOf(s, sep);
    if i < |s| {
      SplitProperties(s[i + 1..], sep);
      var r := Split(s, sep);
      assert r == [s[..i]] + Split(s[i + 1..], sep);
      assert s[i] == sep;
      forall k | 0 <= k < |r|
        ensures sep !in r[k]
      {
        if k > 0 {
          assert r[k] == Split(s[i + 1..], sep)[k - 1];
        }
      }
    }
  }

  /** Go's `strings.Join(parts, string(sep))`. */
  function Join(parts: seq<string>, sep: char): (s: string)
    decreases |parts|
  {
    if |parts| == 0 then ""
    else if |parts| == 1 then parts[0]
    else parts[0] + [sep] + Join(parts[1..], sep)
  }

  lemma IndexOfFirst(a: string, c: char, b: string)
    requires c !in a
    ensures IndexOf(a + [c] + b, c) == |a|
  {
    assert (a + [c] + b)[|a|] == c;
  }

  /** Splitting at a first separator peels off the text before it. */
  lemma SplitAt(a: string, c: char, b: string)
    requires c !in a
    ensures Split(a + [c] + b, c) == [a] + Split(b, c)
  {
    var s := a + [c] + b;
    IndexOfFirst(a, c, b);
    assert s[..|a|] == a;
    assert s[|a| + 1..] == b;
  }

  /** A string without the separator splits into itself. */
  lemma SplitNoSep(s: string, c: char)
    requires c !in s
    ensures Split(s, c) == [s]
  {
    assert IndexOf(s, c) == |s|;
  }

  lemma JoinCons(a: string, rest: seq<string>, sep: char)
    requires |rest| >= 1
    ensures Join([a] + rest, sep) == a + [sep] + Join(rest, sep)
  {
    assert ([a] + rest)[1..] == rest;
  }

  lemma Reassemble(s: string, i: nat)
    requires i < |s|
    ensures s == s[..i] + [s[i]] + s[i + 1..]
  {
  }

  /** Joining the pieces of a split gives back the original string. */
  lemma {:induction false} JoinSplit(s: string, sep: char)
    ensures Join(Split(s, sep), sep) == s
    decreases |s|
  {
    var i := IndexOf(s, sep);
    if i < |s| {
      var rest := Split(s[i + 1..], sep);
      JoinSplit(s[i + 1..], sep);
      JoinCons(s[..i], rest, sep);
      Reassemble(s, i);
    }
  }

  /** Splitting a join of separator-free pieces gives back the pieces. */
  lemma {:induction false} SplitJoin(parts: seq<string>, sep: char)
    requires |parts| >= 1
    requires forall k :: 0 <= k < |parts| ==> sep !in parts[k]
    ensures Split(Join(parts, sep), sep) == parts
    decreases |parts|
  {
    if |parts| > 1 {
      var rest := Join(parts[1..], sep);
      assert Join(parts, sep) == parts[0] + [sep] + rest;
      SplitAt(parts[0], sep, rest);
      SplitJoin(parts[1..], sep);
      assert parts == [parts[0]] + parts[1..];
    }
  }

  /** Appending a piece to a non-empty list appends the separator and the piece. */
  lemma {:induction false} JoinSnoc(parts: seq<string>, x: string, sep: char)
    requires |parts| >= 1
    ensures Join(parts + [x], sep) == Join(parts, sep) + [sep] + x
    decreases |parts|
  {
    if |parts| > 1 {
      JoinSnoc(parts[1..], x, sep);
      assert (parts + [x])[1..] == parts[1..] + [x];
    }
  }

  lemma JoinFirstThree(parts: seq<string>, sep: char)
    requires |parts| >= 3
    ensures parts[0] + [sep] + parts[1] + [sep] + parts[2] <= Join(parts, sep)
    ensures |parts| == 3 ==> Join(parts, sep) == parts[0] + [sep] + parts[1] + [sep] + parts[2]
    ensures var first := parts[0] + [sep] + parts[1] + [sep] + parts[2];
      |parts| > 3 ==> |first| < |Join(parts, sep)| && Join(parts, sep)[|first|] == sep
  {
    var p2 := parts[1..][1..];
    assert p2 == parts[2..];
    var tail := Join(p2, sep);
    assert Join(parts[1..], sep) == parts[1] + [sep] + tail;
    assert Join(parts, sep) == parts[0] + [sep] + parts[1] + [sep] + tail;
    if |parts| > 3 {
      assert tail == parts[2] + [sep] + Join(p2[1..], sep);
      var first := parts[0] + [sep] + parts[1] + [sep] + parts[2];
      assert Join(parts, sep) == first + [sep] + Join(p2[1..], sep);
    } else {
      assert tail == parts[2];
    }
  }

  /** The first three pieces of a split, rejoined, are a prefix of the string:
      all of it when there are exactly three, and followed by the separator
      when there are more. */
  lemma FirstThreePieces(s: string, sep: char)
    requires |Split(s, sep)| >= 3
    ensures var f := Split(s, sep);
      var first := f[0] + [sep] + f[1] + [sep] + f[2];
      && first <= s
      && (|f| == 3 ==> first == s)
      && (|f| > 3 ==> |first| < |s| && s[|first|] == sep)
  {
    JoinSplit(s, sep);
    JoinFirstThree(Split(s, sep), sep);
  }

  /** Go's `<` on strings: lexicographic order, a proper prefix coming first.
      Go compares the UTF-8 bytes; UTF-8 preserves the order of code points,
      so comparing characters gives the same answer. In particular "10" < "9". */
  predicate Less(a: string, b: string)
    decreases |a|
  {
    |b| > 0 && (|a| == 0 || a[0] < b[0] || (a[0] == b[0] && Less(a[1..], b[1..])))
  }

  lemma {:induction false} LessIrreflexive(a: string)
    ensures !Less(a, a)
    decreases |a|
  {
    if |a| > 0 {
      LessIrreflexive(a[1..]);
    }
  }

  lemma {:induction false} LessTransitive(a: string, b: string, c: string)
    requires Less(a, b) && Less(b, c)
    ensures Less(a, c)
    decreases |a|
  {
    if |a| > 0 && a[0] == b[0] && b[0] == c[0] {
      LessTransitive(a[1..], b[1..], c[1..]);
    }
  }

  lemma {:induction false} LessTotal(a: string, b: string)
    ensures a == b || Less(a, b) || Less(b, a)
    decreases |a|
  {
    if |a| > 0 && |b| > 0 && a[0] == b[0] {
      LessTotal(a[1..], b[1..]);
      if a[1..] == b[1..] {
        assert a == [a[0]] + a[1..] && b == [b[0]] + b[1..];
      }
    }
  }

  /** `Less` is a strict total order, so "greatest line" is well defined. */
  lemma LessIsStrictTotalOrder()
    ensures forall a :: !Less(a, a)
    ensures forall a, b, c :: Less(a, b) && Less(b, c) ==> Less(a, c)
    ensures forall a, b :: a == b || Less(a, b) || Less(b, a)
  {
    forall a {
      LessIrreflexive(a);
    }
    forall a, b, c | Less(a, b) && Less(b, c) {
      LessTransitive(a, b, c);
    }
    forall a, b {
      LessTotal(a, b);
    }
  }

  /** Line numbers held as strings do not compare numerically. */
  lemma LessIsNotNumeric()
    ensures Less("10", "9") && !Less("9", "10")
    ensures forall b :: Less("", b) <==> b != ""
  {
  }
}

=== FILE: gopls_text.dfy ===
/** Line handling shared by the parsers of gopls answers. */
module GoplsText {
  import opened GoStrings
  import Seqs

  /** The lines of a gopls answer: `strings.Split(output, "\n")`. */
  function Lines(output: string): (r: seq<string>)
    ensures |r| >= 1
  {
    Split(output, '\n')
  }

  /** The non-empty lines of `lines`, in order. */
  function NonEmptyLines(lines: seq<string>): (r: seq<string>)
    ensures |r| <= |lines|
    ensures forall k :: 0 <= k < |r| ==> r[k] != "" && r[k] in lines
    decreases |lines|
  {
    if |lines| == 0 then []
    else
      var n := |lines| - 1;
      NonEmptyLines(lines[..n]) + (if lines[n] != "" then [lines[n]] else [])
  }

  /** Filtering keeps the order of the lines: the non-empty lines of `a + b`
      are those of `a` followed by those of `b`, and a single line is kept
      exactly when it is non-empty. */
  lemma {:induction false} NonEmptyLinesAppend(a: seq<string>, b: seq<string>)
    ensures NonEmptyLines(a + b) == NonEmptyLines(a) + NonEmptyLines(b)
    ensures forall x :: NonEmptyLines([x]) == (if x != "" then [x] else [])
    decreases |b|
  {
    forall x
      ensures NonEmptyLines([x]) == (if x != "" then [x] else [])
    {
      assert [x][..0] == [];
    }
    if |b| == 0 {
      Seqs.AppendEmpty(a, b);
      Seqs.AppendEmpty(NonEmptyLines(a), NonEmptyLines(b));
    } else {
      var n := |b| - 1;
      NonEmptyLinesAppend(a, b[..n]);
      assert (a + b)[..|a + b| - 1] == a + b[..n];
      assert (a + b)[|a + b| - 1] == b[n];
      Seqs.AppendAssoc(NonEmptyLines(a), NonEmptyLines(b[..n]),
        if b[n] != "" then [b[n]] else []);
    }
  }

  /** The empty answer has one line, and it is empty. */
  lemma EmptyOutputLines()
    ensures Lines("") == [""]
    ensures NonEmptyLines(Lines("")) == []
  {
  }
}

=== FILE: positions.dfy ===
/**
 The position model: a start line and a column range, both kept as the text
 gopls printed.
 */
module Positions {
  import Seqs
  import opened GoStrings

  /** `line` is the start line, `charRange` is `startCol-endCol`. */
  datatype Position = Position(line: string, charRange: string)

  /** A range token shaped enough for `CreatePosition` not to index out of
      range: it has a '-', with a ':' both before it and after it (before
      any further '-'). */
  predicate WellFormedRange(p: string)
  {
    var halves := Split(p, '-');
    |halves| >= 2 && ':' in halves[0] && ':' in halves[1]
  }

  /** Turns a gopls range `L:C-L2:C2` into the start line `L` and the column
      range `C-C2`; the end line is discarded. */
  function CreatePosition(p: string): (r: Position)
    requires WellFormedRange(p)
    ensures r.line == p[..IndexOf(p, ':')]
    ensures ':' !in r.line && '-' !in r.line
  {
    var args := Split(p, '-');
    var args2 := Split(args[0], ':');
    assert args[0] == p[..IndexOf(p, '-')];
    assert IndexOf(args[0], ':') == IndexOf(p, ':');
    Position(args2[0], args2[1] + "-" + Split(args[1], ':')[1])
  }

  /** Serialises a position back into the `L:C-C2` query syntax: the line, a
      ':' and the column range. A line without ':' can be read back as the
      text before the first ':', and the column range as the rest. */
  function GetPos(p: Position): (r: string)
    ensures |r| == |p.line| + 1 + |p.charRange|
    ensures r[..|p.line|] == p.line && r[|p.line|] == ':' && r[|p.line| + 1..] == p.charRange
    ensures ':' !in p.line ==> IndexOf(r, ':') == |p.line|
  {
    var r := p.line + ":" + p.charRange;
    assert r == p.line + [':'] + p.charRange;
    if ':' in p.line then r
    else
      IndexOfFirst(p.line, ':', p.charRange);
      r
  }

  /** For a token `L:C-L2:C2` whose parts hold no ':' or '-',
      `CreatePosition` keeps `L` and `C-C2`, and `GetPos` gives `L:C-C2`. */
  lemma PositionRoundTrip(l: string, c: string, l2: string, c2: string)
    requires ':' !in l && '-' !in l && ':' !in c && '-' !in c
    requires ':' !in l2 && '-' !in l2 && ':' !in c2 && '-' !in c2
    ensures var tok := l + ":" + c + "-" + l2 + ":" + c2;
      && WellFormedRange(tok)
      && CreatePosition(tok) == Position(l, c + "-" + c2)
      && GetPos(CreatePosition(tok)) == l + ":" + c + "-" + c2
  {
    var start := l + [':'] + c;
    var end := l2 + [':'] + c2;
    var tok := l + ":" + c + "-" + l2 + ":" + c2;
    assert tok == start + ['-'] + end;
    assert '-' !in start;
    assert '-' !in end;
    SplitAt(start, '-', end);
    SplitNoSep(end, '-');
    assert Split(tok, '-') == [start, end];
    SplitAt(l, ':', c);
    SplitNoSep(c, ':');
    assert Split(start, ':') == [l, c];
    SplitAt(l2, ':', c2);
    SplitNoSep(c2, ':');
    assert Split(end, ':') == [l2, c2];
    assert WellFormedRange(tok);
    var r := CreatePosition(tok);
    assert r.line == l;
    assert r.charRange == c + "-" + c2;
    assert r == Position(l, c + "-" + c2);
    assert GetPos(r) == l + ":" + (c + "-" + c2);
    Seqs.AppendAssoc(c, "-", c2);
    Seqs.AppendAssoc(l + ":", c, "-" + c2);
    Seqs.AppendAssoc(l + ":" + c, "-", c2);
  }
}

=== FILE: pull_request.dfy ===
/**
 Pull requests of the quickfeed sample: the stage a pull request is in and
 the checks made before one is created.
 */
module PullRequests {

  /** The review stage. `NoStage` stands for the generated enum's zero value. */
  datatype Stage = NoStage | Draft | Review | Approved

  /** The fields the stage checks and the validity check read; the generated
      unsigned identifiers are natural numbers. */
  datatype PullRequest = PullRequest(
    scmRepositoryID: nat,
    taskID: nat,
    issueID: nat,
    userID: nat,
    scmCommentID: nat,
    sourceBranch: string,
    number: nat,
    stage: Stage)

  /** The pull request is at the approved stage. */
  predicate IsApproved(pr: PullRequest)
  {
    pr.stage == Approved
  }

  /** The pull request is in review or approved, so reviewers were assigned. */
  predicate HasReviewers(pr: PullRequest)
  {
    pr.stage == Approved || pr.stage == Review
  }

  /** A feedback comment has been posted for the pull request. */
  predicate HasFeedbackComment(pr: PullRequest)
  {
    pr.scmCommentID > 0
  }

  /** The pull request may be created: every identifier is set and it names
      a source branch. */
  predicate Valid(pr: PullRequest)
  {
    pr.scmRepositoryID > 0 && pr.taskID > 0 &&
    pr.issueID > 0 && pr.sourceBranch != "" && pr.number > 0 &&
    pr.userID > 0
  }

  /** Moves the pull request to the approved stage; nothing else changes. */
  function SetApproved(pr: PullRequest): (r: PullRequest)
    ensures IsApproved(r) && HasReviewers(r)
    ensures r.(stage := pr.stage) == pr
  {
    pr.(stage := Approved)
  }

  /** Moves the pull request to review; nothing else changes. */
  function SetReview(pr: PullRequest): (r: PullRequest)
    ensures HasReviewers(r) && !IsApproved(r)
    ensures r.(stage := pr.stage) == pr
  {
    pr.(stage := Review)
  }

  /** Moves the pull request back to draft; nothing else changes. */
  function SetDraft(pr: PullRequest): (r: PullRequest)
    ensures !HasReviewers(r) && !IsApproved(r)
    ensures r.(stage := pr.stage) == pr
  {
    pr.(stage := Draft)
  }

  /** An approved pull request has reviewers. */
  lemma ApprovedHasReviewers(pr: PullRequest)
    ensures IsApproved(pr) ==> HasReviewers(pr)
  {
  }

  /** Changing the stage keeps validity and the feedback comment. */
  lemma SettersKeepValidity(pr: PullRequest)
    ensures Valid(SetApproved(pr)) == Valid(pr) && Valid(SetReview(pr)) == Valid(pr)
      && Valid(SetDraft(pr)) == Valid(pr)
    ensures HasFeedbackComment(SetApproved(pr)) == HasFeedbackComment(pr)
      && HasFeedbackComment(SetReview(pr)) == HasFeedbackComment(pr)
      && HasFeedbackComment(SetDraft(pr)) == HasFeedbackComment(pr)
  {
  }

  /** Validity needs all five identifiers and the branch: clearing any one of
      them makes a valid pull request invalid. */
  lemma ValidNeedsEveryField(pr: PullRequest)
    requires Valid(pr)
    ensures !Valid(pr.(scmRepositoryID := 0)) && !Valid(pr.(taskID := 0))
    ensures !Valid(pr.(issueID := 0)) && !Valid(pr.(number := 0))
    ensures !Valid(pr.(userID := 0)) && !Valid(pr.(sourceBranch := ""))
    ensures Valid(pr.(scmCommentID := 0)) && Valid(pr.(stage := NoStage))
  {
  }
}

=== FILE: reference_index.dfy ===
/**
 The reference parser that keys references by file: each `path:line:col…`
 line of a `gopls references` answer is resolved to its enclosing
 declaration, using the symbol list of the referencing file, and stored
 under its path. The first line that cannot be resolved stops the parse.
 */
module ReferenceIndex {
  import opened Wrappers
  import opened GoStrings
  import opened GoPaths
  import opened Positions
  import opened Symbols
  import opened GoplsText
  import opened Resolver

  /** One stored reference: `path` is `file:line:col`, `filePath` the file. */
  datatype Ref = Ref(
    path: string,
    filePath: string,
    folderName: string,
    fileName: string,
    methodName: string)

  /** Why the enclosing declaration of a reference could not be found. */
  datatype ResolveError =
    | SymbolsUnavailable(path: string)
    | ZeroSymbols(path: string)
    | NoParentSymbol(path: string, line: string)

  /** The index of the first Function or Method, or -1 when there is none. */
  function FirstCallable(symbols: seq<Symbol>): (k: int)
    ensures -1 <= k < |symbols|
    ensures k >= 0 ==> Callable(symbols[k])
    ensures forall j :: 0 <= j < |symbols| && (k < 0 || j < k) ==> !Callable(symbols[j])
    decreases |symbols|
  {
    if |symbols| == 0 then -1
    else
      var n := |symbols| - 1;
      var b := FirstCallable(symbols[..n]);
      if b >= 0 then b else if Callable(symbols[n]) then n else -1
  }

  /** The index of the first symbol of any kind on `line`, or -1. */
  function FirstOnLine(symbols: seq<Symbol>, line: string): (k: int)
    ensures -1 <= k < |symbols|
    ensures k >= 0 ==> LineOf(symbols[k]) == line
    ensures forall j :: 0 <= j < |symbols| && (k < 0 || j < k) ==> LineOf(symbols[j]) != line
    decreases |symbols|
  {
    if |symbols| == 0 then -1
    else
      var n := |symbols| - 1;
      var b := FirstOnLine(symbols[..n], line);
      if b >= 0 then b else if LineOf(symbols[n]) == line then n else -1
  }

  /**
   The seeded `getRelatedMethod`: the symbol whose name is the enclosing
   declaration of a reference on `refLinePos` in file `path`. `index` holds
   the symbol lists that can be read; a missing path stands for a failure to
   read that file's symbols. The first Function or Method is the seed, and
   the greedy scan of the symbols after it may replace it. Without any
   Function or Method, the first symbol on the reference line is taken, and
   without that the reference has no parent.
   */
  function RelatedMethod(path: string, refLinePos: string, index: map<string, seq<Symbol>>)
    : (r: Result<Symbol, ResolveError>)
    ensures path !in index ==> r == Failure(SymbolsUnavailable(path))
    ensures path in index && |index[path]| == 0 ==> r == Failure(ZeroSymbols(path))
  {
    if path !in index then Failure(SymbolsUnavailable(path))
    else
      var symbols := index[path];
      if |symbols| == 0 then Failure(ZeroSymbols(path))
      else
        var k := FirstCallable(symbols);
        if k >= 0 then
          var rest := symbols[k + 1..];
          var n := NearestIndex(rest, LineOf(symbols[k]), refLinePos);
          if n < 0 then Success(symbols[k]) else Success(symbols[k + 1 + n])
        else
          var e := FirstOnLine(symbols, refLinePos);
          if e >= 0 then Success(symbols[e]) else Failure(NoParentSymbol(path, refLinePos))
  }

  /** What the resolver promises: the result is a symbol of the file; with a
      Function or Method present it is one; without any, it is a symbol on
      the reference line, and the resolver fails exactly when there is none. */
  lemma RelatedMethodSpec(path: string, refLinePos: string, index: map<string, seq<Symbol>>)
    ensures var r := RelatedMethod(path, refLinePos, index);
      && (r.Success? ==> path in index && r.value in index[path])
      && (path in index && (exists j :: 0 <= j < |index[path]| && Callable(index[path][j])) ==>
          r.Success? && Callable(r.value))
      && ((path in index && |index[path]| > 0
           && forall j :: 0 <= j < |index[path]| ==> !Callable(index[path][j])) ==>
          && (r.Success? <==> exists j :: 0 <= j < |index[path]| && LineOf(index[path][j]) == refLinePos)
          && (r.Success? ==> LineOf(r.value) == refLinePos)
          && (r.Failure? ==> r.error == NoParentSymbol(path, refLinePos)))
  {
    if path in index && |index[path]| > 0 {
      var symbols := index[path];
      var k := FirstCallable(symbols);
      if k >= 0 {
        var rest := symbols[k + 1..];
        var n := NearestIndex(rest, LineOf(symbols[k]), refLinePos);
        NearestIndexIsNearest(rest, LineOf(symbols[k]), refLinePos);
        if n >= 0 {
          assert symbols[k + 1 + n] == rest[n];
        }
      }
    }
  }

  /** After the seed, the result is the nearest candidate among the symbols
      that follow it, or the seed itself when none qualifies. */
  lemma SeedThenNearest(path: string, refLinePos: string, index: map<string, seq<Symbol>>, k: nat)
    requires path in index && k < |index[path]|
    requires Callable(index[path][k])
    requires forall j :: 0 <= j < k ==> !Callable(index[path][j])
    ensures var symbols := index[path];
      var rest := symbols[k + 1..];
      var r := RelatedMethod(path, refLinePos, index);
      exists n ::
        && IsNearest(rest, LineOf(symbols[k]), refLinePos, n)
        && r == Success(if n < 0 then symbols[k] else rest[n])
  {
    var symbols := index[path];
    var rest := symbols[k + 1..];
    var n := NearestIndex(rest, LineOf(symbols[k]), refLinePos);
    NearestIndexIsNearest(rest, LineOf(symbols[k]), refLinePos);
    assert FirstCallable(symbols) == k;
    if n >= 0 {
      assert symbols[k + 1 + n] == rest[n];
    }
  }

  /** A reference above every Function and Method resolves to the first
      Function or Method rather than failing. */
  lemma SeedWhenAboveAll(path: string, refLinePos: string, index: map<string, seq<Symbol>>, k: nat)
    requires path in index && k < |index[path]|
    requires Callable(index[path][k])
    requires forall j :: 0 <= j < k ==> !Callable(index[path][j])
    requires forall j :: 0 <= j < |index[path]| && Callable(index[path][j]) ==>
      !Less(LineOf(index[path][j]), refLinePos)
    ensures RelatedMethod(path, refLinePos, index) == Success(index[path][k])
  {
    var symbols := index[path];
    var rest := symbols[k + 1..];
    NearestIndexIsNearest(rest, LineOf(symbols[k]), refLinePos);
    assert FirstCallable(symbols) == k;
    assert forall j :: 0 <= j < |rest| ==> rest[j] == symbols[k + 1 + j];
  }

  /** Without Functions and Methods, the fallback takes the first symbol on
      the reference line. */
  lemma FallbackTakesFirstOnLine(path: string, refLinePos: string, index: map<string, seq<Symbol>>, e: nat)
    requires path in index && e < |index[path]|
    requires forall j :: 0 <= j < |index[path]| ==> !Callable(index[path][j])
    requires LineOf(index[path][e]) == refLinePos
    requires forall j :: 0 <= j < e ==> LineOf(index[path][j]) != refLinePos
    ensures RelatedMethod(path, refLinePos, index) == Success(index[path][e])
  {
    assert FirstCallable(index[path]) < 0;
    assert FirstOnLine(index[path], refLinePos) == e;
  }

  /** A file declaring only a variable, referenced on another line, has no
      parent: the case the Go code reports by panicking. */
  lemma NoParentIsAnError()
    ensures var v := Symbol("v", "Variable", Position("1", "5-6"));
      RelatedMethod("a.go", "7", map["a.go" := [v]]) == Failure(NoParentSymbol("a.go", "7"))
  {
    var v := Symbol("v", "Variable", Position("1", "5-6"));
    assert !Callable(v);
    assert [v][0] == v;
  }

  /** The text before the first ':' of a reference line. */
  function PathOf(line: string): (p: string)
  {
    Split(line, ':')[0]
  }

  /** The reference stored for a line, given the resolved declaration name. */
  function MakeRef(line: string, name: string): (r: Ref)
    requires |Split(line, ':')| >= 3
    ensures r.filePath == PathOf(line) == line[..IndexOf(line, ':')] && ':' !in r.filePath
    ensures r.path <= line && |Split(r.path, ':')| == 3
    ensures r.path == line || line[|r.path|] == ':'
    ensures |Split(line, ':')| == 3 ==> r.path == line
    ensures r.fileName == Base(r.filePath) && r.folderName == Base(Dir(r.filePath))
    ensures r.methodName == name
  {
    var args := Split(line, ':');
    SplitProperties(line, ':');
    FirstThreePieces(line, ':');
    var path := args[0];
    var first := [args[0], args[1], args[2]];
    JoinFirstThree(first, ':');
    SplitJoin(first, ':');
    Ref(path + ":" + args[1] + ":" + args[2], path, Base(Dir(path)), Base(path), name)
  }

  /** The declaration enclosing the reference on a line with a line field. */
  function Parent(line: string, index: map<string, seq<Symbol>>): (r: Result<Symbol, ResolveError>)
    requires |Split(line, ':')| >= 2
  {
    var args := Split(line, ':');
    RelatedMethod(args[0], args[1], index)
  }

  /** A non-empty line the parser reads without indexing out of range: it has
      a line field, and a column field as well when its declaration is found. */
  predicate Readable(line: string, index: map<string, seq<Symbol>>)
  {
    && |Split(line, ':')| >= 2
    && (Parent(line, index).Success? ==> |Split(line, ':')| >= 3)
  }

  /** The reference a line stores: present exactly when the line has a column
      field and its declaration is found. */
  function LineRef(line: string, index: map<string, seq<Symbol>>): (r: Option<Ref>)
    ensures r.Some? <==> |Split(line, ':')| >= 3 && Parent(line, index).Success?
    ensures r.Some? ==> r.value.filePath == PathOf(line) && r.value.methodName == Parent(line, index).value.name
  {
    if |Split(line, ':')| >= 3 && Parent(line, index).Success? then
      Some(MakeRef(line, Parent(line, index).value.name))
    else None
  }

  /** The reference each line stores, by position. */
  function LineRefs(lines: seq<string>, index: map<string, seq<Symbol>>): (t: seq<Option<Ref>>)
    ensures |t| == |lines|
    ensures forall k :: 0 <= k < |lines| ==> t[k] == LineRef(lines[k], index)
  {
    seq(|lines|, k requires 0 <= k < |lines| => LineRef(lines[k], index))
  }

  /** The position of the first non-empty line at or after `from` that is
      unreadable or does not resolve, or `|lines|` when every line resolves.
      The parse reads no line after it. */
  function FirstFailure(lines: seq<string>, index: map<string, seq<Symbol>>, from: nat): (m: nat)
    requires from <= |lines|
    ensures from <= m <= |lines|
    ensures forall j :: from <= j < m ==>
      lines[j] == "" || (Readable(lines[j], index) && Parent(lines[j], index).Success?)
    ensures m < |lines| ==>
      lines[m] != "" && (Readable(lines[m], index) ==> Parent(lines[m], index).Failure?)
    decreases |lines| - from
  {
    if from == |lines| then from
    else if lines[from] == "" || (Readable(lines[from], index) && Parent(lines[from], index).Success?) then
      FirstFailure(lines, index, from + 1)
    else from
  }

  /** The parse reads every line it reaches without indexing out of range:
      the line that stops it, if any, is readable. */
  predicate ParseReadable(lines: seq<string>, index: map<string, seq<Symbol>>)
  {
    var m := FirstFailure(lines, index, 0);
    m < |lines| ==> Readable(lines[m], index)
  }

  /** What the loop knows about a non-empty line it reaches: the line is
      readable, and it is the stopping line exactly when it does not resolve. */
  lemma ReachedLine(lines: seq<string>, index: map<string, seq<Symbol>>, i: nat)
    requires ParseReadable(lines, index)
    requires i < |lines| && i <= FirstFailure(lines, index, 0) && lines[i] != ""
    ensures Readable(lines[i], index)
    ensures Parent(lines[i], index).Success? ==> i < FirstFailure(lines, index, 0)
    ensures Parent(lines[i], index).Failure? ==> i == FirstFailure(lines, index, 0)
  {
  }

  /** A line whose file has no symbol list stops the parse with an error
      before its column field is read, and the lines after it are never read:
      here a two-field line is followed by a line without any ':'. */
  lemma ErrorStopsBeforeLaterLines()
    ensures var lines := ["x.go:1", "y"];
      && ParseReadable(lines, map[])
      && FirstFailure(lines, map[], 0) == 0
      && Parent(lines[0], map[]) == Failure(SymbolsUnavailable("x.go"))
  {
    var lines := ["x.go:1", "y"];
    var parts := ["x.go", "1"];
    assert Join(parts, ':') == "x.go:1" by {
      assert parts[1..] == ["1"];
    }
    SplitJoin(parts, ':');
    assert Parent(lines[0], map[]) == Failure(SymbolsUnavailable("x.go"));
    assert FirstFailure(lines, map[], 0) == 0;
  }

  /** The last non-empty line before `n` whose path is `p`, or -1. */
  function LastWriter(lines: seq<string>, p: string, n: nat): (w: int)
    requires n <= |lines|
    ensures -1 <= w < n
    ensures w >= 0 ==> lines[w] != "" && PathOf(lines[w]) == p
    ensures forall j :: w < j < n ==> lines[j] == "" || PathOf(lines[j]) != p
  {
    if n == 0 then -1
    else if lines[n - 1] != "" && PathOf(lines[n - 1]) == p then n - 1
    else LastWriter(lines, p, n - 1)
  }

  /** What the map holds for `p` once lines before `n` are stored, where
      `table` holds the reference each line stores: that of the last line of
      the file, else what `refs` held. */
  function Stored(refs: map<string, Ref>, lines: seq<string>, table: seq<Option<Ref>>,
                  p: string, n: nat): (r: Option<Ref>)
    requires n <= |lines| == |table|
    ensures LastWriter(lines, p, n) < 0 ==> r == (if p in refs then Some(refs[p]) else None)
    ensures LastWriter(lines, p, n) >= 0 ==> r == table[LastWriter(lines, p, n)]
  {
    var w := LastWriter(lines, p, n);
    if w >= 0 then table[w]
    else if p in refs then Some(refs[p])
    else None
  }

  /** `cur` is the map once the lines before `n` are stored into `refs`. */
  ghost predicate StoredUpTo(refs: map<string, Ref>, cur: map<string, Ref>, lines: seq<string>,
                             table: seq<Option<Ref>>, n: nat)
  {
    && n <= |lines| == |table|
    && (forall p :: p in cur <==> p in refs || LastWriter(lines, p, n) >= 0)
    && (forall p :: p in cur ==> Stored(refs, lines, table, p, n) == Some(cur[p]))
  }

  /** Skipping an empty line keeps the map as it is. */
  lemma SkipStep(refs: map<string, Ref>, cur: map<string, Ref>, lines: seq<string>,
                 table: seq<Option<Ref>>, n: nat)
    requires StoredUpTo(refs, cur, lines, table, n)
    requires n < |lines| && lines[n] == ""
    ensures StoredUpTo(refs, cur, lines, table, n + 1)
  {
    forall p
      ensures LastWriter(lines, p, n + 1) == LastWriter(lines, p, n)
    {
    }
  }

  /** Storing line `n` leaves what every other path holds as it was. */
  lemma StoredElsewhere(refs: map<string, Ref>, lines: seq<string>, table: seq<Option<Ref>>,
                        p: string, n: nat)
    requires n < |lines| == |table| && lines[n] != "" && p != PathOf(lines[n])
    ensures LastWriter(lines, p, n + 1) == LastWriter(lines, p, n)
    ensures Stored(refs, lines, table, p, n + 1) == Stored(refs, lines, table, p, n)
  {
  }

  /** Storing a resolved line puts its reference under its path. */
  lemma StoreStep(refs: map<string, Ref>, cur: map<string, Ref>, lines: seq<string>,
                  table: seq<Option<Ref>>, n: nat, r: Ref)
    requires StoredUpTo(refs, cur, lines, table, n)
    requires n < |lines| && lines[n] != "" && table[n] == Some(r)
    ensures StoredUpTo(refs, cur[PathOf(lines[n]) := r], lines, table, n + 1)
  {
    var path := PathOf(lines[n]);
    assert LastWriter(lines, path, n + 1) == n;
    forall p | p != path
      ensures LastWriter(lines, p, n + 1) == LastWriter(lines, p, n)
      ensures Stored(refs, lines, table, p, n + 1) == Stored(refs, lines, table, p, n)
    {
      StoredElsewhere(refs, lines, table, p, n);
    }
    var next := cur[path := r];
    forall p
      ensures p in next <==> p in refs || LastWriter(lines, p, n + 1) >= 0
    {
    }
    forall p | p in next
      ensures Stored(refs, lines, table, p, n + 1) == Some(next[p])
    {
      if p != path {
        assert next[p] == cur[p];
      }
    }
  }

  /** The outcome of parsing `output` into `refs`: with `m` the first line
      that does not resolve, the lines before `m` are stored (the last line
      of each file winning), and the error is that of line `m`, if any. */
  ghost predicate ParsedInto(output: string, refs: map<string, Ref>, index: map<string, seq<Symbol>>,
                             refs': map<string, Ref>, err: Option<ResolveError>)
  {
    var lines := Lines(output);
    && ParseReadable(lines, index)
    && var m := FirstFailure(lines, index, 0);
    && (err.None? <==> m == |lines|)
    && (err.Some? ==> m < |lines| && Readable(lines[m], index) && Parent(lines[m], index) == Failure(err.value))
    && StoredUpTo(refs, refs', lines, LineRefs(lines, index), m)
  }

  /** An empty answer changes nothing and reports no error. */
  lemma EmptyAnswerStoresNothing(refs: map<string, Ref>, index: map<string, seq<Symbol>>,
                                 refs': map<string, Ref>, err: Option<ResolveError>)
    requires ParsedInto("", refs, index, refs', err)
    ensures refs' == refs && err == None
  {
    EmptyOutputLines();
    var lines := Lines("");
    assert FirstFailure(lines, index, 0) == 1;
    forall p
      ensures LastWriter(lines, p, 1) == -1
    {
    }
    assert refs'.Keys == refs.Keys;
  }

  /**
   The keyed `parseRefs`: stores one reference per non-empty line under its
   file path, so later lines of the same file overwrite earlier ones. Stops
   at the first line whose enclosing declaration cannot be found and reports
   why; lines before it stay stored.
   */
  method ParseRefs(output: string, refs: map<string, Ref>, index: map<string, seq<Symbol>>)
    returns (refs': map<string, Ref>, err: Option<ResolveError>)
    requires ParseReadable(Lines(output), index)
    ensures ParsedInto(output, refs, index, refs', err)
  {
    var lines := Lines(output);
    ghost var m := FirstFailure(lines, index, 0);
    ghost var table := LineRefs(lines, index);
    refs' := refs;
    err := None;
    var i := 0;
    while i < |lines|
      invariant i <= m
      invariant StoredUpTo(refs, refs', lines, table, i)
    {
      var line := lines[i];
      if line == "" {
        SkipStep(refs, refs', lines, table, i);
        i := i + 1;
        continue;
      }
      ReachedLine(lines, index, i);
      var args := Split(line, ':');
      var path := args[0];
      var linePos := args[1];
      var parent := RelatedMethod(path, linePos, index);
      assert parent == Parent(line, index);
      if parent.Failure? {
        err := Some(parent.error);
        return;
      }
      var stored := MakeRef(line, parent.value.name);
      assert table[i] == LineRef(line, index) == Some(stored);
      StoreStep(refs, refs', lines, table, i, stored);
      refs' := refs'[path := stored];
      i := i + 1;
    }
  }
}

=== FILE: reference_list.dfy ===
/**
 The reference parser that keeps a list: each non-empty line of a
 `gopls references` answer becomes one reference, in line order, named by
 the last two '/' elements of the file path before the first ':'.
 */
module ReferenceList {
  import opened GoStrings
  import opened GoplsText
  import Seqs

  /** One reference: `path` is the whole line of the gopls answer. */
  datatype Ref = Ref(path: string, folderName: string, fileName: string, methodName: string)

  /** `getLastEntry`: the element `i` places before the last one of the
      `delimiter`-separated elements of `str`. */
  function LastEntry(str: string, delimiter: char, i: nat): (r: string)
    requires i < |Split(str, delimiter)|
    ensures delimiter !in r
  {
    var split := Split(str, delimiter);
    SplitProperties(str, delimiter);
    split[|split| - 1 - i]
  }

  /** For elements without the delimiter, `LastEntry` picks the element `i`
      places before the last one. */
  lemma LastEntryOfJoin(segs: seq<string>, delimiter: char, i: nat)
    requires i < |segs|
    requires forall k :: 0 <= k < |segs| ==> delimiter !in segs[k]
    ensures i < |Split(Join(segs, delimiter), delimiter)|
    ensures LastEntry(Join(segs, delimiter), delimiter, i) == segs[|segs| - 1 - i]
  {
    SplitJoin(segs, delimiter);
  }

  /** The text before the first ':' of a reference line. */
  function FilePathOf(line: string): (p: string)
  {
    Split(line, ':')[0]
  }

  /** A line the parser can read without indexing out of range: empty, or
      with a '/' in its file path, so that the path has a second-last element. */
  predicate ListRefLine(line: string)
  {
    line == "" || '/' in FilePathOf(line)
  }

  /** The reference one non-empty line gives. */
  function RefOf(line: string): (r: Ref)
    requires ListRefLine(line) && line != ""
    ensures r.path == line && r.methodName == ""
    ensures var filePath := line[..IndexOf(line, ':')];
      && '/' !in r.fileName && '/' !in r.folderName
      && |r.folderName| + 1 + |r.fileName| <= |filePath|
      && filePath[|filePath| - |r.folderName| - 1 - |r.fileName|..] == r.folderName + "/" + r.fileName
      && (|filePath| == |r.folderName| + 1 + |r.fileName|
          || filePath[|filePath| - |r.folderName| - 2 - |r.fileName|] == '/')
  {
    var filePath := FilePathOf(line);
    SplitProperties(line, ':');
    LastTwoEntries(filePath);
    Ref(line, LastEntry(filePath, '/', 1), LastEntry(filePath, '/', 0), "")
  }

  /** A path with a '/' ends with its second-last element, a '/' and its
      last element. */
  lemma LastTwoEntries(filePath: string)
    requires '/' in filePath
    ensures 2 <= |Split(filePath, '/')|
    ensures var folder := LastEntry(filePath, '/', 1);
      var file := LastEntry(filePath, '/', 0);
      && |folder| + 1 + |file| <= |filePath|
      && filePath[|filePath| - |folder| - 1 - |file|..] == folder + "/" + file
      && (|filePath| == |folder| + 1 + |file| || filePath[|filePath| - |folder| - 2 - |file|] == '/')
  {
    SplitProperties(filePath, '/');
    var parts := Split(filePath, '/');
    var n := |parts|;
    assert LastEntry(filePath, '/', 1) == parts[n - 2];
    assert LastEntry(filePath, '/', 0) == parts[n - 1];
    JoinSplit(filePath, '/');
    assert Join(parts, '/') == filePath;
    JoinEndsWithLastTwo(parts, '/');
  }

  /** A join ends with its last two elements and the separator between them. */
  lemma JoinEndsWithLastTwo(parts: seq<string>, sep: char)
    requires |parts| >= 2
    ensures var n := |parts|;
      var tail := parts[n - 2] + [sep] + parts[n - 1];
      var joined := Join(parts, sep);
      && |tail| <= |joined| && joined[|joined| - |tail|..] == tail
      && (|tail| == |joined| || joined[|joined| - |tail| - 1] == sep)
  {
    var n := |parts|;
    var init := parts[..n - 1];
    assert parts == init + [parts[n - 1]];
    JoinSnoc(init, parts[n - 1], sep);
    var pre := init[..n - 2];
    assert init == pre + [parts[n - 2]];
    var tail := parts[n - 2] + [sep] + parts[n - 1];
    if n == 2 {
      assert Join(init, sep) == parts[n - 2];
      assert Join(parts, sep) == tail;
    } else {
      JoinSnoc(pre, parts[n - 2], sep);
      assert Join(parts, sep) == (Join(pre, sep) + [sep]) + tail;
      assert Join(parts, sep)[|Join(pre, sep)|] == sep;
    }
  }

  /** `r` is the reference `line` gives. */
  predicate RefFrom(r: Ref, line: string)
  {
    line != "" && ListRefLine(line) && r == RefOf(line)
  }

  /** The references of a list of lines: one per non-empty line, in order. */
  function Collected(lines: seq<string>): (r: seq<Ref>)
    requires forall k :: 0 <= k < |lines| ==> ListRefLine(lines[k])
    ensures var found := NonEmptyLines(lines);
      && |r| == |found|
      && forall k :: 0 <= k < |found| ==> RefFrom(r[k], found[k])
    decreases |lines|
  {
    if |lines| == 0 then []
    else
      var n := |lines| - 1;
      var prev := Collected(lines[..n]);
      assert lines == lines[..n] + [lines[n]];
      if lines[n] != "" then prev + [RefOf(lines[n])] else prev
  }

  lemma CollectedStep(lines: seq<string>, i: nat)
    requires i < |lines|
    requires forall k :: 0 <= k < |lines| ==> ListRefLine(lines[k])
    ensures ListRefLine(lines[i])
    ensures lines[i] != "" ==> Collected(lines[..i + 1]) == Collected(lines[..i]) + [RefOf(lines[i])]
    ensures lines[i] == "" ==> Collected(lines[..i + 1]) == Collected(lines[..i])
  {
    assert lines[..i + 1][..i] == lines[..i];
  }

  /**
   The list `parseRefs`: appends one reference per non-empty line, in line
   order, after the references already in `refs`. The enclosing declaration
   is not resolved here: every new reference has an empty method name.
   */
  method ParseRefs(output: string, refs: seq<Ref>) returns (refs': seq<Ref>)
    requires forall k :: 0 <= k < |Lines(output)| ==> ListRefLine(Lines(output)[k])
    ensures var found := NonEmptyLines(Lines(output));
      && |refs'| == |refs| + |found|
      && refs'[..|refs|] == refs
      && forall k :: 0 <= k < |found| ==> RefFrom(refs'[|refs| + k], found[k])
  {
    var lines := Lines(output);
    refs' := refs;
    var i := 0;
    while i < |lines|
      invariant 0 <= i <= |lines|
      invariant refs' == refs + Collected(lines[..i])
    {
      var line := lines[i];
      CollectedStep(lines, i);
      if line == "" {
        i := i + 1;
        continue;
      }
      var filePath := Split(line, ':')[0];
      SplitProperties(filePath, '/');
      var fileName := LastEntry(filePath, '/', 0);
      var folderName := LastEntry(filePath, '/', 1);
      var ref := Ref(line, folderName, fileName, "");
      assert ref == RefOf(line);
      Seqs.AppendAssoc(refs, Collected(lines[..i]), [ref]);
      refs' := refs' + [ref];
      i := i + 1;
    }
    Seqs.WholePrefix(lines);
    Seqs.AppendParts(refs, Collected(lines));
  }
}

=== FILE: resolver.dfy ===
/**
 The greedy enclosing-declaration search: starting from a given parent, scan
 the symbols of a file in order and move to a later Function or Method whose
 line lies strictly between the current parent's line and the reference
 line. Lines are compared as strings, with Go's `<`.
 */
module Resolver {
  import opened Wrappers
  import opened GoStrings
  import opened Positions
  import opened Symbols

  /** Only functions and methods can enclose a reference. */
  predicate Callable(s: Symbol)
  {
    s.kind == FunctionKind || s.kind == MethodKind
  }

  function LineOf(s: Symbol): (line: string)
  {
    s.position.line
  }

  /** `s` may replace a parent on line `floor` for a reference on `refLine`. */
  predicate Candidate(s: Symbol, floor: string, refLine: string)
  {
    Callable(s) && Less(floor, LineOf(s)) && Less(LineOf(s), refLine)
  }

  /** The index of the symbol the scan of `symbols` ends on, starting from a
      parent on line `init`, or -1 when the parent is never replaced. */
  function NearestIndex(symbols: seq<Symbol>, init: string, refLine: string): (k: int)
    ensures -1 <= k < |symbols|
    decreases |symbols|
  {
    if |symbols| == 0 then -1
    else
      var n := |symbols| - 1;
      var b := NearestIndex(symbols[..n], init, refLine);
      var current := if b < 0 then init else LineOf(symbols[b]);
      if Candidate(symbols[n], current, refLine) then n else b
  }

  /** The line the scan ends on. */
  function NearestLine(symbols: seq<Symbol>, init: string, refLine: string): (line: string)
  {
    var k := NearestIndex(symbols, init, refLine);
    if k < 0 then init else LineOf(symbols[k])
  }

  /** What the greedy scan finds, stated without the scan: no replacement
      exactly when no symbol is a candidate; otherwise a candidate whose line
      no other candidate exceeds, and the first of those in list order. */
  predicate IsNearest(symbols: seq<Symbol>, init: string, refLine: string, k: int)
  {
    && -1 <= k < |symbols|
    && (k < 0 <==> forall j :: 0 <= j < |symbols| ==> !Candidate(symbols[j], init, refLine))
    && (k >= 0 ==>
      && Candidate(symbols[k], init, refLine)
      && (forall j :: 0 <= j < |symbols| && Candidate(symbols[j], init, refLine) ==>
            !Less(LineOf(symbols[k]), LineOf(symbols[j])))
      && (forall j :: 0 <= j < k && Candidate(symbols[j], init, refLine) ==>
            Less(LineOf(symbols[j]), LineOf(symbols[k]))))
  }

  /** The greedy scan computes the nearest preceding declaration. */
  lemma {:induction false} NearestIndexIsNearest(symbols: seq<Symbol>, init: string, refLine: string)
    ensures IsNearest(symbols, init, refLine, NearestIndex(symbols, init, refLine))
    decreases |symbols|
  {
    if |symbols| > 0 {
      var n := |symbols| - 1;
      var pre := symbols[..n];
      NearestIndexIsNearest(pre, init, refLine);
      NearestStep(symbols, init, refLine);
    }
  }

  /** One step of the scan preserves `IsNearest`. */
  lemma NearestStep(symbols: seq<Symbol>, init: string, refLine: string)
    requires |symbols| > 0
    requires IsNearest(symbols[..|symbols| - 1], init, refLine,
      NearestIndex(symbols[..|symbols| - 1], init, refLine))
    ensures IsNearest(symbols, init, refLine, NearestIndex(symbols, init, refLine))
  {
    var n := |symbols| - 1;
    var pre := symbols[..n];
    var b := NearestIndex(pre, init, refLine);
    assert forall j :: 0 <= j < n ==> pre[j] == symbols[j];
    if NearestIndex(symbols, init, refLine) == n {
      StepTaken(symbols, init, refLine, b);
    } else {
      StepKept(symbols, init, refLine, b);
    }
  }

  /** The last symbol replaces the parent found in the prefix. */
  lemma StepTaken(symbols: seq<Symbol>, init: string, refLine: string, b: int)
    requires |symbols| > 0
    requires IsNearest(symbols[..|symbols| - 1], init, refLine, b)
    requires Candidate(symbols[|symbols| - 1],
      if b < 0 then init else LineOf(symbols[b]), refLine)
    requires forall j :: 0 <= j < |symbols| - 1 ==> symbols[..|symbols| - 1][j] == symbols[j]
    ensures IsNearest(symbols, init, refLine, |symbols| - 1)
  {
    var n := |symbols| - 1;
    var ls := LineOf(symbols[n]);
    LessIrreflexive(ls);
    if b >= 0 {
      var lb := LineOf(symbols[b]);
      LessTransitive(init, lb, ls);
      forall j | 0 <= j < n && Candidate(symbols[j], init, refLine)
        ensures Less(LineOf(symbols[j]), ls)
      {
        LessTotal(LineOf(symbols[j]), lb);
        if LineOf(symbols[j]) != lb {
          LessTransitive(LineOf(symbols[j]), lb, ls);
        }
      }
      forall j | 0 <= j < n && Candidate(symbols[j], init, refLine)
        ensures !Less(ls, LineOf(symbols[j]))
      {
        if Less(ls, LineOf(symbols[j])) {
          LessTransitive(ls, LineOf(symbols[j]), ls);
        }
      }
    }
  }

  /** The last symbol does not replace the parent found in the prefix. */
  lemma StepKept(symbols: seq<Symbol>, init: string, refLine: string, b: int)
    requires |symbols| > 0
    requires IsNearest(symbols[..|symbols| - 1], init, refLine, b)
    requires !Candidate(symbols[|symbols| - 1],
      if b < 0 then init else LineOf(symbols[b]), refLine)
    requires forall j :: 0 <= j < |symbols| - 1 ==> symbols[..|symbols| - 1][j] == symbols[j]
    ensures IsNearest(symbols, init, refLine, b)
  {
  }

  /** The line of the parent never decreases: the scan ends on `init` or on a
      line above it. */
  lemma NearestLineNotBelow(symbols: seq<Symbol>, init: string, refLine: string)
    ensures var line := NearestLine(symbols, init, refLine);
      line == init || Less(init, line)
  {
    NearestIndexIsNearest(symbols, init, refLine);
  }

  /**
   The greedy `getRelatedMethod`: scans `symbols` in order and replaces the
   parent by each Function or Method lying further down than the current
   parent and above the reference line. Never reports an error.
   */
  method RelatedMethod(symbols: seq<Symbol>, refParent: Symbol, refLinePos: string)
    returns (parent: Symbol, err: Option<string>)
    ensures err == None
    ensures var k := NearestIndex(symbols, LineOf(refParent), refLinePos);
      parent == if k < 0 then refParent else symbols[k]
    ensures parent == refParent || (parent in symbols && Candidate(parent, LineOf(refParent), refLinePos))
    ensures (forall j :: 0 <= j < |symbols| ==> !Candidate(symbols[j], LineOf(refParent), refLinePos))
      ==> parent == refParent
    ensures LineOf(parent) == LineOf(refParent) || Less(LineOf(refParent), LineOf(parent))
    ensures forall j :: 0 <= j < |symbols| && Candidate(symbols[j], LineOf(refParent), refLinePos) ==>
      !Less(LineOf(parent), LineOf(symbols[j]))
  {
    parent := refParent;
    ghost var k := -1;
    var i := 0;
    while i < |symbols|
      invariant 0 <= i <= |symbols|
      invariant k == NearestIndex(symbols[..i], LineOf(refParent), refLinePos)
      invariant parent == if k < 0 then refParent else symbols[k]
    {
      var s := symbols[i];
      assert symbols[..i + 1][..i] == symbols[..i];
      if s.kind != FunctionKind && s.kind != MethodKind {
        i := i + 1;
        continue;
      }
      var isFurtherDown := Less(LineOf(parent), LineOf(s));
      var isAboveRef := Less(LineOf(s), refLinePos);
      if isFurtherDown && isAboveRef {
        parent := s;
        k := i;
      }
      i := i + 1;
    }
    assert symbols[..i] == symbols;
    err := None;
    NearestIndexIsNearest(symbols, LineOf(refParent), refLinePos);
  }

  /** Ties go to the earliest symbol: of two functions on the same line, the
      scan keeps the first. */
  lemma EarliestTieWins()
    ensures var f := Symbol("f", FunctionKind, Position("3", "1-2"));
      var g := Symbol("g", FunctionKind, Position("3", "5-6"));
      var top := Symbol("top", FunctionKind, Position("1", "1-2"));
      NearestIndex([f, g], LineOf(top), "5") == 0
  {
    LessIsNotNumeric();
  }

  /** Lines are compared as text: a function on line 2 is not taken for a
      reference on line 10, because "2" < "10" is false for text. */
  lemma TextualLineOrder()
    ensures var top := Symbol("top", FunctionKind, Position("1", "1-2"));
      var two := Symbol("two", FunctionKind, Position("2", "1-2"));
      NearestIndex([two], LineOf(top), "10") == -1
  {
  }
}

=== FILE: scm_invite.dfy ===
/** Invitation options of the quickfeed sample's SCM client. */
module Invitations {

  /** Which organization and user to accept invitations for. */
  datatype InvitationOptions = InvitationOptions(login: string, owner: string, refreshToken: string)

  /** The options name a user, an organization and a refresh token. */
  predicate Valid(opt: InvitationOptions)
  {
    opt.login != "" && opt.owner != "" && opt.refreshToken != ""
  }

  /** Each field is needed: options with any one of them empty are invalid,
      and options with none empty are valid. */
  lemma ValidIffAllFieldsSet(opt: InvitationOptions)
    ensures opt.login == "" ==> !Valid(opt)
    ensures opt.owner == "" ==> !Valid(opt)
    ensures opt.refreshToken == "" ==> !Valid(opt)
    ensures opt.login != "" && opt.owner != "" && opt.refreshToken != "" ==> Valid(opt)
  {
  }
}

=== FILE: seqs.dfy ===
/** Small facts about sequence concatenation, stated once so that proofs
    with many quantified facts in scope need not rediscover them. */
module Seqs {

  lemma AppendAssoc<T>(a: seq<T>, b: seq<T>, c: seq<T>)
    ensures (a + b) + c == a + (b + c)
  {
  }

  lemma WholePrefix<T>(a: seq<T>)
    ensures a[..|a|] == a
  {
  }

  lemma AppendEmpty<T>(a: seq<T>, b: seq<T>)
    requires |b| == 0
    ensures a + b == a
  {
  }

  /** The parts of `a + b` are `a` and `b`. */
  lemma AppendParts<T>(a: seq<T>, b: seq<T>)
    ensures |a + b| == |a| + |b|
    ensures (a + b)[..|a|] == a
    ensures forall k :: 0 <= k < |b| ==> (a + b)[|a| + k] == b[k]
  {
  }
}

=== FILE: symbols.dfy ===
/**
 The symbol extractor: turns the text of a `gopls symbols` answer into an
 ordered list of declarations.
 */
module Symbols {
  import opened GoStrings
  import opened Positions
  import opened GoplsText
  import Seqs

  const FunctionKind := "Function"
  const MethodKind := "Method"

  /** One declaration as gopls reports it; `kind` is kept verbatim. */
  datatype Symbol = Symbol(name: string, kind: string, position: Position)

  /** The single-space-separated fields of one line. */
  function Fields(line: string): (fields: seq<string>)
  {
    Split(line, ' ')
  }

  /** Lines with at least three fields describe a symbol; others are skipped. */
  predicate IsSymbolLine(line: string)
  {
    |Fields(line)| >= 3
  }

  /** The symbol lines of `lines`, in order. */
  function SymbolLines(lines: seq<string>): (r: seq<string>)
    ensures |r| <= |lines|
    ensures forall k :: 0 <= k < |r| ==> IsSymbolLine(r[k]) && r[k] in lines
    decreases |lines|
  {
    if |lines| == 0 then []
    else
      var n := |lines| - 1;
      SymbolLines(lines[..n]) + (if IsSymbolLine(lines[n]) then [lines[n]] else [])
  }

  /** Filtering keeps the order of the lines: the symbol lines of `a + b` are
      those of `a` followed by those of `b`, and a single line is kept exactly
      when it has at least three fields. */
  lemma {:induction false} SymbolLinesAppend(a: seq<string>, b: seq<string>)
    ensures SymbolLines(a + b) == SymbolLines(a) + SymbolLines(b)
    ensures forall x :: SymbolLines([x]) == (if IsSymbolLine(x) then [x] else [])
    decreases |b|
  {
    forall x
      ensures SymbolLines([x]) == (if IsSymbolLine(x) then [x] else [])
    {
      assert [x][..0] == [];
    }
    if |b| == 0 {
      Seqs.AppendEmpty(a, b);
      Seqs.AppendEmpty(SymbolLines(a), SymbolLines(b));
    } else {
      var n := |b| - 1;
      SymbolLinesAppend(a, b[..n]);
      assert (a + b)[..|a + b| - 1] == a + b[..n];
      assert (a + b)[|a + b| - 1] == b[n];
      Seqs.AppendAssoc(SymbolLines(a), SymbolLines(b[..n]),
        if IsSymbolLine(b[n]) then [b[n]] else []);
    }
  }

  /** A symbol line whose range field `CreatePosition` can read without
      indexing out of range (lines that are skipped are always fine). */
  predicate Parsable(line: string)
  {
    IsSymbolLine(line) ==> WellFormedRange(Fields(line)[2])
  }

  /** The stored name: for a `Method` whose reported name has a '.', the text
      after the first '.' up to the next '.' (`T.M` becomes `M`); every other
      name is kept as it is. */
  function SymbolName(name: string, kind: string): (r: string)
    ensures kind != MethodKind || '.' !in name ==> r == name
    ensures kind == MethodKind && '.' in name ==>
      var rest := name[IndexOf(name, '.') + 1..];
      r == rest[..IndexOf(rest, '.')]
    ensures kind == MethodKind && '.' in name ==> '.' !in r && |r| < |name|
  {
    if kind == MethodKind && '.' in name then
      var rest := name[IndexOf(name, '.') + 1..];
      SplitProperties(name, '.');
      SplitAt(name[..IndexOf(name, '.')], '.', rest);
      assert name == name[..IndexOf(name, '.')] + ['.'] + rest;
      SplitProperties(rest, '.');
      Split(name, '.')[1]
    else name
  }

  /** `sym` is what a symbol line says: kind the second field verbatim, name
      the first field (receiver dropped for methods), position read from the
      third field. */
  predicate Describes(sym: Symbol, line: string)
  {
    && IsSymbolLine(line)
    && Parsable(line)
    && var f := Fields(line);
    && sym.kind == f[1]
    && sym.name == SymbolName(f[0], f[1])
    && sym.position == CreatePosition(f[2])
  }

  /** The symbol one symbol line describes. */
  function ParseSymbol(line: string): (sym: Symbol)
    requires IsSymbolLine(line) && Parsable(line)
    ensures Describes(sym, line)
  {
    var args := Fields(line);
    Symbol(SymbolName(args[0], args[1]), args[1], CreatePosition(args[2]))
  }

  /** The symbols of a list of lines: one per symbol line, in order. */
  function Extracted(lines: seq<string>): (r: seq<Symbol>)
    requires forall k :: 0 <= k < |lines| ==> Parsable(lines[k])
    ensures var found := SymbolLines(lines);
      && |r| == |found|
      && forall k :: 0 <= k < |found| ==> Describes(r[k], found[k])
    decreases |lines|
  {
    if |lines| == 0 then []
    else
      var n := |lines| - 1;
      var prev := Extracted(lines[..n]);
      assert lines == lines[..n] + [lines[n]];
      if IsSymbolLine(lines[n]) then prev + [ParseSymbol(lines[n])] else prev
  }

  lemma ExtractedSnoc(lines: seq<string>, line: string)
    requires forall k :: 0 <= k < |lines| ==> Parsable(lines[k])
    requires Parsable(line)
    ensures forall k :: 0 <= k < |lines + [line]| ==> Parsable((lines + [line])[k])
    ensures Extracted(lines + [line])
      == Extracted(lines) + (if IsSymbolLine(line) then [ParseSymbol(line)] else [])
  {
    assert (lines + [line])[..|lines|] == lines;
  }

  lemma ExtractedStep(lines: seq<string>, i: nat)
    requires i < |lines|
    requires forall k :: 0 <= k < |lines| ==> Parsable(lines[k])
    ensures Parsable(lines[i])
    ensures IsSymbolLine(lines[i]) ==>
      Extracted(lines[..i + 1]) == Extracted(lines[..i]) + [ParseSymbol(lines[i])]
    ensures !IsSymbolLine(lines[i]) ==> Extracted(lines[..i + 1]) == Extracted(lines[..i])
  {
    assert lines[..i + 1] == lines[..i] + [lines[i]];
    ExtractedSnoc(lines[..i], lines[i]);
  }

  /** Reads one gopls answer and appends a symbol for each line with at least
      three fields, in line order, after the symbols already in `s`. */
  method ExtractSymbols(output: string, s: seq<Symbol>) returns (s': seq<Symbol>)
    requires forall k :: 0 <= k < |Lines(output)| ==> Parsable(Lines(output)[k])
    ensures var found := SymbolLines(Lines(output));
      && |s'| == |s| + |found|
      && s'[..|s|] == s
      && forall k :: 0 <= k < |found| ==> Describes(s'[|s| + k], found[k])
    ensures output == "" ==> s' == s
  {
    var lines := Lines(output);
    s' := s;
    var i := 0;
    while i < |lines|
      invariant 0 <= i <= |lines|
      invariant s' == s + Extracted(lines[..i])
    {
      var line := lines[i];
      ExtractedStep(lines, i);
      var args := Fields(line);
      if |args| >= 3 {
        var name := args[0];
        var kind := args[1];
        // for methods, drop the receiver type
        if kind == MethodKind && '.' in name {
          name := Split(name, '.')[1];
        }
        var sym := Symbol(name, kind, CreatePosition(args[2]));
        assert sym == ParseSymbol(line);
        Seqs.AppendAssoc(s, Extracted(lines[..i]), [sym]);
        s' := s' + [sym];
      }
      i := i + 1;
    }
    Seqs.WholePrefix(lines);
    Seqs.AppendParts(s, Extracted(lines));
    if output == "" {
      EmptyOutputHasNoSymbols();
      Seqs.AppendEmpty(s, Extracted(lines));
    }
  }

  lemma EmptyOutputHasNoSymbols()
    ensures SymbolLines(Lines("")) == []
  {
    EmptyOutputLines();
    assert Fields("") == [""];
  }

  /** A method reported as `Foo.Bar` is stored as `Bar`; a function keeps its name. */
  lemma MethodReceiverStripped()
    ensures SymbolName("Foo.Bar", MethodKind) == "Bar"
    ensures SymbolName("Foo.Bar", FunctionKind) == "Foo.Bar"
  {
    SplitAt("Foo", '.', "Bar");
    assert "Foo.Bar" == "Foo" + ['.'] + "Bar";
    SplitNoSep("Bar", '.');
  }
}

=== FILE: validity.dfy ===
/**
 Which directories and files a scan visits: directories are refused by exact
 path in an exclusion set; files are refused by exact path in an exclusion
 set or when their extension is not supported.
 */
module Validity {
  import opened Wrappers
  import opened GoPaths

  /** The supported file extensions. */
  const InExt: set<string> := {".go", ".ts", ".tsx"}

  /** The excluded directories, matched against the whole path. */
  const ExDirs: set<string> := {"node_modules", "doc", ".git"}

  /** The excluded files: none. */
  const ExFiles: set<string> := {}

  datatype ValidityError =
    | ExcludedDirectory(path: string)
    | ExcludedFile(path: string)
    | UnsupportedExtension

  /** `isValid`: may the scan visit `content`? */
  function IsValid(isDir: bool, content: string): (r: Outcome<ValidityError>)
    ensures isDir ==> (r.Fail? <==> content in ExDirs)
    ensures !isDir ==> (r.Pass? <==> content !in ExFiles && Ext(content) in InExt)
    ensures r.Fail? && isDir ==> r.error == ExcludedDirectory(content)
    ensures r.Fail? && !isDir ==> r.error != ExcludedDirectory(content)
  {
    if isDir then
      if content in ExDirs then Fail(ExcludedDirectory(content)) else Pass
    else if content in ExFiles then Fail(ExcludedFile(content))
    else if Ext(content) !in InExt then Fail(UnsupportedExtension)
    else Pass
  }

  /** Every Go source file may be scanned, wherever it lies. */
  lemma GoFilesAreValid(stem: string)
    ensures IsValid(false, stem + ".go") == Pass
  {
    ExtOfSuffix(stem, "go");
    assert stem + "." + "go" == stem + ".go";
    assert "." + "go" == ".go";
  }

  /** A file whose last element has no '.' has no extension and is refused,
      whether it sits under a directory or is a bare name. */
  lemma FileWithoutExtensionIsRefused(dir: string, name: string)
    requires '.' !in name && '/' !in name
    ensures IsValid(false, name) == Fail(UnsupportedExtension)
    ensures IsValid(false, dir + "/" + name) == Fail(UnsupportedExtension)
  {
    assert LastIndexOf(name, '.') == -1;
    assert Ext(name) == "";
    var p := dir + "/" + name;
    assert p == dir + ['/'] + name;
    LastIndexOfLast(dir, '/', name);
    assert forall j :: |dir| < j < |p| ==> p[j] == name[j - |dir| - 1];
    assert Ext(p) == "";
  }

  /** Directories are matched by their whole path: a nested `node_modules`
      is not excluded, and a directory's extension is never looked at. */
  lemma DirectoriesMatchWholePath()
    ensures IsValid(true, "quickfeed/node_modules") == Pass
    ensures IsValid(true, "node_modules") == Fail(ExcludedDirectory("node_modules"))
    ensures IsValid(true, "notes.txt") == Pass
  {
    assert "quickfeed/node_modules" != "node_modules";
    assert "quickfeed/node_modules" != "doc";
    assert "quickfeed/node_modules" != ".git";
    assert "notes.txt" != "node_modules";
  }
}

=== FILE: wrappers.dfy ===
/** Failure-carrying datatypes for Go's `(value, error)` returns and error-only returns. */
module Wrappers {

  /** A value that may be absent; also stands for a Go `error` that may be nil. */
  datatype Option<+T> = None | Some(value: T)

  /** A Go `(value, error)` pair in which exactly one side is meaningful. */
  datatype Result<+R, +E> = Success(value: R) | Failure(error: E)

  /** A Go function that only returns an `error`. */
  datatype Outcome<+E> = Pass | Fail(error: E)
}
